=== FILE: README.md ===
# Whiteboard session synchronisation, modelled in Dafny

This project models the real-time core of a collaborative whiteboard backend.
The backend is written in TypeScript on Socket.IO and Mongoose. The model covers:

- the board document, with its schema defaults, enumerations and unique (owner, name) index (`BoardModel`);
- the access resolver, which decides `edit`, `view` or a 400/404/403 refusal for a user on a board (`PermHandler`);
- the handshake guard, which finds the `token` cookie, verifies it, and attaches the user or refuses with 401 (`AuthHandler`);
- the page persistence services, which upsert or delete a page and append a (before, after) history record (`Pages`, `PageServices`);
- the whole-board shape replacement service, which writes its history record before it saves (`ShapeService`);
- the drawing, text and cursor capability handlers: a permission gate at registration, then a map from a client event to an outgoing room message (`DrawHandler`, `TextHandler`, `CursorHandler`);
- the per-connection wiring: the middleware order, what a connection registers, and how `joinBoard` grows its room membership (`Sockets`, `Session`).

Everything is pure. The database is a value `Db`: the stored boards keyed by id, plus the history list. A store failure that is not a `CustomError` is a `Fault` naming the store call that throws. Each service therefore shows what happens when any one of its calls fails. That includes partial effects, such as a page change with no history record. Socket payloads are JSON-like `Value`s, and `Undefined` stands for JavaScript's `undefined`. Object ids are modelled by their string form, so the source's `toString()` comparisons are plain equality. Cookie parsing and token verification are function parameters whose behaviour is left open.

The model follows the code as written. Points where the code's behaviour is easy to misread:

- The connection callback reads `socket.permission` once per connection and reuses it for every `joinBoard`, whatever board is named (`Sockets.Dispatch`). `socket.permission` is never assigned by the socket setup or by either socket middleware, so `OnConnection` takes it as a parameter.
- Drawing events are rebroadcast with the payload unchanged and without the sender's identity. `draw` becomes `newDrawing`; `erase`, `editShape` and `clearBoard` keep their names. The repository's own socket tests expect otherwise: tests/socketTests/socketDrawEvents.testHelper.ts:35-36 expects identity fields, and lines 40 and 75 listen for `erased` and `clearedBoard`.
- No socket handler calls a persistence service, so no socket event touches the store.
- Nothing ever removes a connection from a room: membership only grows, and `disconnect` only logs.
- `joinBoard`, `io.to` and `socket.to` accept a room or an array of rooms. An array names each of its elements (`Messages.RoomsNamed`). An empty room set addresses every connected socket.
- A listener reads `data.boardId`. When a client sends a drawing, text or cursor event with a `null` or missing payload, that read throws a TypeError and nothing is sent.
- The connection code calls `registerTextHandlers` with three of its five arguments. Its `userEmail` and `userId` tags are therefore `undefined`, and `Dispatch` passes `Undefined` for both.
- The cursor handler is never registered, so `cursorMove` reaches no listener on a wired connection. It is modelled on its own in `CursorHandler`.
- `socketPermMiddleware` is installed with `io.use`. There it receives `next` in place of a board id and never calls it. The model keeps it as a standalone resolver. The handshake takes the outcome of that second stage as a parameter (`StageResult`), and `Stall` covers "never calls `next`".
- The board schema is strict and declares no `shapes` path. The shape service therefore reads `board.shapes` as `undefined`, and `save()` does not write the assigned list. The service stores only its history record, with `undefined` as the old shapes (`ShapeService.SocketShapeUpdate`).
- The shape service's catch block says "trying to delete the board". `ShapeService.ShapeFailurePrefix` keeps that wording.

## Model

| member | source | states |
|---|---|---|
| BoardModel.CastPermission | models/boardModel.ts:43-47 | a stored permission is accepted exactly when it is "view" or "edit", and it maps back to the same spelling |
| BoardModel.CastCollaborator | models/boardModel.ts:40-48 | a collaborator entry is valid exactly when the user id is present and the permission is present and in its enumeration; a missing user fails as `Required("user")`; the stored entry keeps the submitted user and permission |
| BoardModel.CastCollaborators | models/boardModel.ts:40-49 | a collaborator list is accepted exactly when every entry is, position by position and with the same length |
| BoardModel.CastSecurity | models/boardModel.ts:52-56 | security is only `public` or `private`; when absent it defaults to `private`; any other value fails the enumeration |
| BoardModel.CastPage | models/boardModel.ts:25-34 | a page is valid exactly when it has a page number; missing whiteboard objects default to an empty list, and present ones are kept |
| BoardModel.CastPages | models/boardModel.ts:50 | a page list is accepted exactly when every page carries a page number, with each page cast in place |
| BoardModel.CastBoard | models/boardModel.ts:36-60 | name and owner are required; a board is accepted exactly when they are present and every sub-document is valid; the stored collaborators, pages, thumbnail and security are the submitted ones, cast; a new board with no pages starts with an empty page list, an empty thumbnail and `private` security |
| BoardModel.InsertBoard | models/boardModel.ts:62-63 | an insert succeeds exactly when neither the id nor the (owner, name) pair is taken; otherwise it fails with a duplicate-key error; a successful insert adds only that board and keeps the index unique |
| PermHandler.FirstEntryFor | middleware/socket/permHandler.ts:24-26 | finds the position of the first collaborator entry whose user equals the caller, and no earlier entry matches |
| PermHandler.FindCollaborator | middleware/socket/permHandler.ts:24-30 | finds no entry exactly when no entry names the caller; otherwise returns the first entry for the caller |
| PermHandler.ResolvePermission | middleware/socket/permHandler.ts:5-37 | first match wins. A missing or empty board id gives 400 before any lookup; an unknown board gives 404; the owner gets `edit` whatever the list holds; a listed non-owner gets the first entry's permission; anyone else gets `view` on a public board and 403 on a private one; there are no other errors |
| PermHandler.ResolvedAccessIsGranted | middleware/socket/permHandler.ts:20-36 | checks the resolver against an independent statement of who may do what: every access handed out is granted by the board, and a refusal happens exactly when the board grants neither `view` nor `edit` |
| PermHandler.PrivateBoardsDoNotLeak | middleware/socket/permHandler.ts:32-36 | on a private board, `view` goes only to a user listed with `view`; an unlisted non-owner gets 403 |
| PermHandler.LaterEntriesAreShadowed | middleware/socket/permHandler.ts:24-30 | once a user is listed, entries appended later (for anyone) never change what `find` returns for them |
| AuthHandler.Secret | middleware/socket/authHandler.ts:25 | the verification secret is the environment's when it is set and non-empty, otherwise "sync"; it is never empty |
| AuthHandler.SocketAuth | middleware/socket/authHandler.ts:6-31 | `next` is called exactly once on every path; a user is attached exactly when `next` gets no error, and only with the value verification returned; all rejections are 401: a missing header gives "Authentication token must be provided", a missing or empty `token` cookie gives "Authentication token not found in cookies", and a failed verification gives "Invalid token" |
| Errors.Catch | services/boardServices/socketPageServices.ts:88-101 | a `CustomError` passes through unchanged; any other failure becomes status 500, with the operation's prefix followed by the original message |
| Json.Read | sockets/handlers/drawHandler.ts:39 | reading a property throws exactly on `null` and `undefined`; otherwise it yields the field, or `undefined` when absent |
| Messages.RoomOf | sockets/handlers/drawHandler.ts:39 | the rooms `data.boardId` names: none (a throw) exactly for a `null` or missing payload, each element of an array id, or the id itself |
| Json.AsList | services/boardServices/socketPageServices.ts:33-37 | an array is stored as its items; any other value is wrapped into a one-element list |
| Json.Tagged | sockets/handlers/textHandler.ts:36 | the broadcast object keeps every client field, adds `userEmail` and `userId`, and the handler's values override client fields with those names |
| Pages.FirstPage | services/boardServices/socketPageServices.ts:40-53 | the positional match finds the first page with the given number, and it finds one exactly when that number is present |
| Pages.UpsertPages | services/boardServices/socketPageServices.ts:39-70 | if the number exists, only the first such page's objects change, and the length and every other page stay the same; otherwise exactly one page is appended at the end; the set of numbers gains exactly that number; unique page numbers stay unique |
| Pages.DeletePages | services/boardServices/socketPageServices.ts:123-130 | a page survives exactly when its number differs; the survivors keep their order (a subsequence); the length drops by the number of matching pages |
| Pages.DeletedNumberIsGone | services/boardServices/socketPageServices.ts:127 | after a delete the page numbers are exactly the old ones minus the deleted number |
| Pages.DeleteAbsentIsIdentity | services/boardServices/socketPageServices.ts:124-130 | removing a number no page carries leaves the list unchanged |
| Pages.DeleteKeepsUnique | services/boardServices/socketPageServices.ts:123-130 | deleting keeps page numbers unique |
| Pages.ReadAfterUpsert | services/boardServices/socketPageServices.ts:40-70 | reading a page right after upserting it returns exactly the objects written |
| Pages.UpsertLeavesOtherPages | services/boardServices/socketPageServices.ts:40-53 | an upsert of one page number is invisible to readers of every other page number |
| Pages.UpsertIsIdempotent | services/boardServices/socketPageServices.ts:40-70 | writing the same objects to the same page twice equals writing them once |
| Pages.DeleteAfterUpsert | services/boardServices/socketPageServices.ts:103-130 | deleting page n after upserting it leaves what deleting it alone would leave |
| Pages.DeleteUndoesCreation | services/boardServices/socketPageServices.ts:58-130 | delete is the inverse of the upsert that created a page: the page list returns to what it was |
| Store.Settle | services/boardServices/socketPageServices.ts:87-101 | a service returns `true` exactly when its body threw nothing, and otherwise reports the caught error; the store keeps whatever the body wrote |
| PageServices.SocketPageUpdate | services/boardServices/socketPageServices.ts:17-102 | with a healthy store it succeeds exactly when the board exists. An absent board gives 404 and writes nothing. Success upserts that board's pages, changes no other board, appends exactly one (before, after) record and returns true. Failures write no history. Pages change without a record only when the history write failed. A failure at any store call the upsert makes (the existence check, the read, the `$set`, the `$push` when the page is new, the history write) is reported as a 500 carrying the store message, and every non-404 error is such a 500. Unique page numbers stay unique |
| PageServices.UpdateIgnoresCallsNotMade | services/boardServices/socketPageServices.ts:22-85 | a failure injected at a store call the upsert does not make (the `$push` when the page exists, any call after an absent board, calls of other services) leaves the outcome exactly as with a healthy store |
| PageServices.SocketPageDelete | services/boardServices/socketPageServices.ts:103-157 | an absent board or page number gives 404, with the store untouched and no history. Success removes every page with that number, appends exactly one (before, after) record and returns true. Failures write no history. A failure at any store call the delete makes (the read, and for a present page the `$pull` and the history write) is reported as a 500 carrying the store message, and every other error is such a 500 |
| PageServices.DeleteIgnoresCallsNotMade | services/boardServices/socketPageServices.ts:106-142 | a failure injected at a store call the delete does not make leaves the outcome exactly as with a healthy store |
| PageServices.DeleteKeepsPagesUnique | services/boardServices/socketPageServices.ts:123-130 | a delete, whatever fails along the way, keeps every board's page numbers unique |
| ShapeService.SocketShapeUpdate | services/boardServices/socketShapeUpdateService.ts:11-52 | the stored boards never change, because `shapes` is not a schema path. An absent board gives 404 and writes nothing. Once the board is found, exactly one record (`undefined`, the new list wrapped if not an array) is appended unless that write fails. A failed save still leaves the record. Success returns true; a failure at the read, the history write or the save is reported as a 500 carrying the store message, and every other error is such a 500 |
| ShapeService.ShapeIgnoresCallsNotMade | services/boardServices/socketShapeUpdateService.ts:13-35 | a failure injected at a store call the shape service does not make leaves the outcome exactly as with a healthy store |
| AuditTrail.UpdateKeepsTrail | services/boardServices/socketPageServices.ts:79-85 | with a healthy store, after an upsert each board's newest page record still shows its current pages |
| AuditTrail.DeleteKeepsTrail | services/boardServices/socketPageServices.ts:136-142 | with a healthy store, after a delete each board's newest page record still shows its current pages |
| AuditTrail.ShapeUpdateKeepsTrail | services/boardServices/socketShapeUpdateService.ts:24-35 | a shape replacement, whether it fails or not, never disturbs the page trail |
| AuditTrail.FailedHistoryWriteLeavesUnrecordedChange | services/boardServices/socketPageServices.ts:39-85 | the page is written before the history record, so a failing history write leaves a stored change that no record shows (a concrete store) |
| DrawHandler.RegisterDrawingHandlers | sockets/handlers/drawHandler.ts:17-28 | listeners are registered exactly when the permission is `edit`; any other value emits exactly one 403 error to the caller and registers nothing |
| DrawHandler.OnDrawEvent | sockets/handlers/drawHandler.ts:37-72 | every drawing message goes to the whole room, sender included. `draw` is sent as `newDrawing`; `erase` and `editShape` keep their names. All three carry the payload unchanged to the rooms its `boardId` names. A `null` or missing payload throws and sends nothing. `clearBoard(id)` always sends a payload-less `clearBoard` to the rooms `id` names |
| DrawHandler.DrawingRoundTrip | sockets/handlers/drawHandler.ts:37-61 | a receiver recovers exactly the drawing event the sender emitted from its rebroadcast; `clearBoard` reads back as no drawing |
| TextHandler.RegisterTextHandlers | sockets/handlers/textHandler.ts:14-27 | listeners are registered exactly when the permission is `edit`; any other value emits exactly one 403 error and registers nothing |
| TextHandler.OnTextEvent | sockets/handlers/textHandler.ts:34-59 | `addText`, `backspaceText` and `editText` become `addedText`, `backspacedText` and `editedText`, sent to the whole of the rooms `boardId` names. The payload has exactly the client's fields plus `userEmail` and `userId`, and the handler's identity overrides the client's. A `null` or missing payload throws and sends nothing |
| TextHandler.TextPayloadRoundTrip | sockets/handlers/textHandler.ts:36 | setting the identity fields aside, a receiver reads back exactly the fields the client sent |
| CursorHandler.RegisterCursorHandler | sockets/handlers/cursorHandler.ts:5-19 | any permission, `view` or `edit`, enables `cursorMove`; a missing one emits exactly one 403 error and registers nothing |
| CursorHandler.OnCursorEvent | sockets/handlers/cursorHandler.ts:21-25 | `cursorMove` becomes `cursorMoved` for the rooms `boardId` names, with the sender excluded. The payload has exactly the client's fields plus the two identity fields, and the sender's identity overrides client fields. A `null` or missing payload throws and sends nothing |
| CursorHandler.CursorPayloadRoundTrip | sockets/handlers/cursorHandler.ts:24 | setting the identity fields aside, a receiver reads back exactly the cursor data the client sent |
| Sockets.OnConnection | sockets/index.ts:22-52 | a new connection has no rooms. It listens for `joinBoard` and `disconnect`, plus the drawing and text events exactly when the captured permission is `edit`. It never listens for `cursorMove`. Without `edit` it receives exactly one 403 from each gated handler |
| Sockets.Connect | sockets/index.ts:17-20 | authentication runs before the permission stage: a refused token refuses the connection whatever that stage would do. With a verified token the second stage alone decides: `Proceed` connects with the verified user, `Refuse(e)` is refused with `e`, and `Stall` leaves the handshake pending |
| Sockets.InstalledHandshakeNeverConnects | middleware/socket/permHandler.ts:5-37 | with the permission middleware as installed, which never calls `next`, no handshake yields a connection: it is refused with 401, or left pending exactly when the token verifies |
| Sockets.Dispatch | sockets/index.ts:31-60 | identity, permission and listeners never change. With a captured permission, `joinBoard` adds exactly the rooms its argument names (each element of an array), whatever board that is. Without a permission, `joinBoard` emits one 403 and membership is unchanged. No event leaves a room. An unlistened event is dropped, with the connection unchanged. Registered drawing and text events send exactly their handler's message, or nothing when it throws. `disconnect` and `cursorMove` change nothing and send nothing. No event touches the store |
| Session.RunKeepsCapturedState | sockets/index.ts:31-34 | over any sequence of events, the identity, the permission read at connection time and the registered listeners stay fixed |
| Session.RunMembership | sockets/index.ts:33-46 | after any sequence of events, membership is exactly the earlier rooms plus every room asked for (with a permission), or unchanged (without one) |
| Session.JoinListJoinsEveryRoom | sockets/index.ts:33-35 | `joinBoard` with a list of ids joins every listed room |
| Session.MembershipOnlyGrows | sockets/index.ts:33-36 | room membership only grows |
| Session.RunConcatenates | sockets/index.ts:22-61 | handling two batches of events in turn sends what each batch sends, in order, so one sender's messages keep their order |
| Session.NoPermissionOnlyRefuses | sockets/index.ts:39-52 | a wired connection without a permission joins nothing and broadcasts nothing: it answers each `joinBoard` with one 403 and nothing else |
| Session.ViewerCannotDraw | sockets/handlers/drawHandler.ts:22-28 | a view-only connection receives the drawing 403 at connection time, and a drawing event it sends reaches nobody |
| Session.EditorDrawingReachesRoom | sockets/handlers/drawHandler.ts:37-40 | an editor's `draw` reaches the whole of the rooms named in its payload as `newDrawing`, with the payload unchanged; a `null` or missing payload reaches nobody |

## Left out

- Timestamps (`createdAt`, `updatedAt`) are left out because they come from the clock.
- Concurrency and store atomicity are not modelled. Each service call is one sequential step. Races between `findOneAndUpdate`, `$push` and `$pull` from different callers, and last-write-wins outcomes, are left out.
- The two "Failed to add new page to board" and "Failed to delete the page from the board" branches are left out. They fire only when the board disappears between two store calls, which needs concurrency.
- A malformed board id makes the store raise a cast error, which is not a `CustomError`. The model treats every id as a plain key, so an unknown id is simply absent.
- Errors.Catch: uses the failure's message. The source falls back to the error value itself when the message is empty; the model does not.
- Json.Spread: only object payloads contribute fields. Spreading an array or a string, which copies indexed elements in JavaScript, is not modelled.
- JavaScript numbers are modelled as integers. Page numbers are compared as integers.
- Logging (`console.log`) is left out, and so are the `JSON.parse(JSON.stringify(...))` snapshots. The snapshots are treated as value copies. A JSON round trip (and, by the store driver's default serialisation, a stored array too) turns an `undefined` array element into `null`. So an upsert without `whiteBoardObjects` reads back as `[null]`, while the model keeps `[Undefined]` in both the board and the history record.
- The cookie parser and token verification are uninterpreted function parameters. Their signature and expiry rules are library behaviour.
- The decoded token is modelled as a user with an id and an email. Other token claims are not modelled.
- The change-history schema file is incomplete. History is modelled as an abstract list of page-change and shape-change records.
- BoardModel.CastBoard: reports only the first failing path. The schema validator reports every failing path.
- The socket's automatic room named after its own id is not modelled.
- Transport-level delivery (serialising `undefined` fields away, reconnection) is not modelled.
- Sockets.Connect: the permission stage's outcome is a parameter. As installed with `io.use`, that stage is `socketPermMiddleware`, which has no path that calls `next` (middleware/socket/permHandler.ts:5-37). So every handshake that passes authentication ends `Pending` with `permStage == Stall`, whatever the lookup returns. `Proceed` and `Refuse` are kept so that the wiring after the handshake can be stated.
- The HTTP controllers, server start-up and the board create/delete/search services are not part of this model.
- Sockets.Dispatch: a listener that throws sends nothing and leaves the connection as it was. What then becomes of the TypeError outside the listener is not modelled.
- Sockets.OnConnection: the captured permission is `Option<Permission>`, so only `undefined`, "view" and "edit" reach the `joinBoard`, drawing, text and cursor gates. Nothing assigns `socket.permission`, and the resolver returns only the two permissions. Other truthy values, which the cursor and `joinBoard` gates would let through, are not modelled.
- Pages are modelled by number and objects only. The page schema is not strict and `IPage` allows extra keys, so a stored page can carry further fields. The positional `$set` keeps them, and the history snapshots copy them; the model does not represent them.

=== FILE: audit_trail.dfy ===
/**
 * The audit trail across service calls: with a healthy store, every service
 * keeps the newest page record of each board in step with its stored pages;
 * a failed history write after a page write breaks that agreement.
 */
module AuditTrail {
  import opened Wrappers
  import opened Json
  import opened BoardModel
  import opened Store
  import opened PageServices
  import opened ShapeService

  /** Appending a record changes the newest page list of its own board only, and shape records change none. */
  lemma LastPagesAfterAppend(history: seq<HistoryRecord>, h: HistoryRecord, id: string)
    ensures LastPages(history + [h], id) ==
              if h.PageChange? && h.boardId == id then Some(h.newPages) else LastPages(history, id)
  {
    assert (history + [h])[..|history|] == history;
  }

  /** A healthy page upsert keeps the audit trail in step with the store. */
  lemma UpdateKeepsTrail(db: Db, input: PageUpdate)
    requires HistoryMatchesPages(db)
    ensures HistoryMatchesPages(SocketPageUpdate(db, input, None).db)
  {
    var o := SocketPageUpdate(db, input, None);
    if input.boardId in db.boards {
      forall id | id in o.db.boards && LastPages(o.db.history, id).Some?
        ensures LastPages(o.db.history, id).value == o.db.boards[id].pages
      {
        LastPagesAfterAppend(db.history, o.db.history[|o.db.history| - 1], id);
        assert o.db.history == db.history + [o.db.history[|o.db.history| - 1]];
      }
    }
  }

  /** A healthy page delete keeps the audit trail in step with the store. */
  lemma DeleteKeepsTrail(db: Db, input: PageDelete)
    requires HistoryMatchesPages(db)
    ensures HistoryMatchesPages(SocketPageDelete(db, input, None).db)
  {
    var o := SocketPageDelete(db, input, None);
    if o.result.Ok? {
      forall id | id in o.db.boards && LastPages(o.db.history, id).Some?
        ensures LastPages(o.db.history, id).value == o.db.boards[id].pages
      {
        LastPagesAfterAppend(db.history, o.db.history[|o.db.history| - 1], id);
        assert o.db.history == db.history + [o.db.history[|o.db.history| - 1]];
      }
    }
  }

  /** A shape replacement, failed or not, never disturbs the page trail. */
  lemma ShapeUpdateKeepsTrail(db: Db, input: ShapeUpdate, fault: Option<Fault>)
    requires HistoryMatchesPages(db)
    ensures HistoryMatchesPages(SocketShapeUpdate(db, input, fault).db)
  {
    var o := SocketShapeUpdate(db, input, fault);
    if o.db.history != db.history {
      forall id | id in o.db.boards && LastPages(o.db.history, id).Some?
        ensures LastPages(o.db.history, id).value == o.db.boards[id].pages
      {
        LastPagesAfterAppend(db.history, o.db.history[|o.db.history| - 1], id);
        assert o.db.history == db.history + [o.db.history[|o.db.history| - 1]];
      }
    }
  }

  /**
   * The upsert writes the page before it writes the history record, so a
   * failing history write leaves a stored page change that no record shows.
   */
  lemma FailedHistoryWriteLeavesUnrecordedChange()
    ensures
      var db := Db(map["b" := Board("b", "Board", "owner", [], [], "", Private)],
                   [PageChange("b", "owner", [], [])]);
      var o := SocketPageUpdate(db, PageUpdate("owner", "b", 1, Null), Some(Fault(CreateHistoryCall, "write failed")));
      && HistoryMatchesPages(db)
      && o.result.Err?
      && !HistoryMatchesPages(o.db)
  {
    var db := Db(map["b" := Board("b", "Board", "owner", [], [], "", Private)],
                 [PageChange("b", "owner", [], [])]);
    var o := SocketPageUpdate(db, PageUpdate("owner", "b", 1, Null), Some(Fault(CreateHistoryCall, "write failed")));
    assert o.db.boards["b"].pages == [Page(1, [Null])];
    assert LastPages(o.db.history, "b") == Some([]);
    assert LastPages(db.history, "b") == Some([]);
  }
}

=== FILE: auth_handler.dfy ===
/**
 * The handshake guard: find the session token in the cookie header, verify
 * it, and either attach the decoded user to the socket or refuse with 401.
 * Cookie parsing and token verification are library calls and enter the
 * model as uninterpreted parameters.
 */
module AuthHandler {
  import opened Wrappers
  import opened Errors

  /** The decoded token payload the rest of the core reads. */
  datatype User = User(id: string, email: string)

  const TokenMustBeProvided := CustomError("Authentication token must be provided", 401)
  const TokenNotInCookies := CustomError("Authentication token not found in cookies", 401)
  const InvalidToken := CustomError("Invalid token", 401)

  /** The signing secret when the environment provides none. */
  const DefaultSecret := "sync"

  /** `process.env.JWT_SECRET || "sync"`. */
  function Secret(env: Option<string>): (s: string)
    ensures s != ""
    ensures env.Some? && env.value != "" ==> s == env.value
    ensures env.None? || env.value == "" ==> s == DefaultSecret
  {
    if env.Some? && env.value != "" then env.value else DefaultSecret
  }

  /**
   * What the middleware did: the value it attached as `socket.user` (if any)
   * and the arguments of every call it made to `next`, in order (`None` is
   * `next()` with no error).
   */
  datatype AuthOutcome = AuthOutcome(user: Option<User>, nextCalls: seq<Option<CustomError>>)

  /**
   * `socketAuthMiddleware`. `parse` stands for the cookie parser and `verify`
   * for token verification with a secret (`None` when it throws).
   */
  function SocketAuth(
    cookieHeader: Option<string>,
    env: Option<string>,
    parse: string -> map<string, string>,
    verify: (string, string) -> Option<User>): (r: AuthOutcome)
    // `next` is called exactly once, with an error exactly when no user was attached
    ensures |r.nextCalls| == 1
    ensures r.user.Some? <==> r.nextCalls[0].None?
    ensures r.nextCalls[0].Some? ==> r.nextCalls[0].value.status == 401
    // the three rejections, in order
    ensures cookieHeader.None? || cookieHeader == Some("") ==> r.nextCalls == [Some(TokenMustBeProvided)]
    ensures cookieHeader.Some? && cookieHeader.value != "" ==>
              var cookies := parse(cookieHeader.value);
              if "token" !in cookies || cookies["token"] == "" then r.nextCalls == [Some(TokenNotInCookies)]
              else if verify(cookies["token"], Secret(env)).None? then r.nextCalls == [Some(InvalidToken)]
              else r.user == verify(cookies["token"], Secret(env))
  {
    if cookieHeader.None? || cookieHeader.value == "" then
      AuthOutcome(None, [Some(TokenMustBeProvided)])
    else
      var cookies := parse(cookieHeader.value);
      if "token" !in cookies || cookies["token"] == "" then
        AuthOutcome(None, [Some(TokenNotInCookies)])
      else match verify(cookies["token"], Secret(env))
        case None => AuthOutcome(None, [Some(InvalidToken)])
        case Some(user) => AuthOutcome(Some(user), [None])
  }
}

=== FILE: board_model.dfy ===
/**
 * The board document: collaborators, pages, the permission and security
 * enumerations, the schema defaults, and the unique (owner, name) index.
 * Object ids are modelled by their string form.
 */
module BoardModel {
  import opened Wrappers
  import opened Json

  datatype Permission = View | Edit

  datatype Security = Public | Private

  /** One entry of a board's collaborator list. */
  datatype Collaborator = Collaborator(user: string, permission: Permission)

  /** A page: its number and its list of schema-less whiteboard objects. */
  datatype Page = Page(pageNumber: int, whiteBoardObjects: seq<Value>)

  /**
   * A stored board. The schema is strict and declares no `shapes` path, so a
   * stored board has no shape list (see README).
   */
  datatype Board = Board(
    id: string,
    name: string,
    createdBy: string,
    collaborators: seq<Collaborator>,
    pages: seq<Page>,
    thumbnailImg: string,
    security: Security)

  /** The stored spelling of a permission. */
  function PermissionName(p: Permission): string {
    match p
    case View => "view"
    case Edit => "edit"
  }

  /** The stored spelling of a security flag. */
  function SecurityName(s: Security): string {
    match s
    case Public => "public"
    case Private => "private"
  }

  /** Why the schema refuses a document. */
  datatype SchemaError =
    | Required(path: string)
    | NotInEnum(path: string, value: string)
    | DuplicateKey

  /** A board document as submitted, before the schema casts it; absent fields are `None`. */
  datatype RawCollaborator = RawCollaborator(user: Option<string>, permission: Option<string>)

  datatype RawPage = RawPage(pageNumber: Option<int>, whiteBoardObjects: Option<seq<Value>>)

  datatype RawBoard = RawBoard(
    name: Option<string>,
    createdBy: Option<string>,
    collaborators: seq<RawCollaborator>,
    pages: Option<seq<RawPage>>,
    thumbnailImg: Option<string>,
    security: Option<string>)

  /** A required string path is missing when absent or empty. */
  predicate MissingString(s: Option<string>) {
    s.None? || s.value == ""
  }

  /** The `enum: ["view", "edit"]` validator of a collaborator's permission. */
  function CastPermission(s: string): (r: Option<Permission>)
    ensures r.Some? <==> s == "view" || s == "edit"
    ensures r.Some? ==> PermissionName(r.value) == s
  {
    if s == "view" then Some(View)
    else if s == "edit" then Some(Edit)
    else None
  }

  /** The security path: `enum: ["public", "private"]` with default `private`. */
  function CastSecurity(s: Option<string>): (r: Result<Security, SchemaError>)
    ensures s.None? ==> r == Ok(Private)
    ensures s.Some? ==> (r.Ok? <==> s.value == "public" || s.value == "private")
    ensures s.Some? && r.Ok? ==> SecurityName(r.value) == s.value
    ensures r.Err? ==> r.error == NotInEnum("security", s.value)
  {
    match s
    case None => Ok(Private)
    case Some(v) =>
      if v == "public" then Ok(Public)
      else if v == "private" then Ok(Private)
      else Err(NotInEnum("security", v))
  }

  /** A collaborator sub-document: `user` and `permission` are both required, and the permission must be in its enumeration. */
  function CastCollaborator(raw: RawCollaborator): (r: Result<Collaborator, SchemaError>)
    ensures r.Ok? <==> raw.user.Some? && !MissingString(raw.permission)
                        && (raw.permission.value == "view" || raw.permission.value == "edit")
    ensures raw.user.None? ==> r == Err(Required("user"))
    ensures r.Ok? ==> r.value.user == raw.user.value && PermissionName(r.value.permission) == raw.permission.value
  {
    if raw.user.None? then Err(Required("user"))
    else if MissingString(raw.permission) then Err(Required("permission"))
    else match CastPermission(raw.permission.value)
      case None => Err(NotInEnum("permission", raw.permission.value))
      case Some(p) => Ok(Collaborator(raw.user.value, p))
  }

  /** A page sub-document: `pageNumber` is required; missing objects default to an empty list. */
  function CastPage(raw: RawPage): (r: Result<Page, SchemaError>)
    ensures r.Ok? <==> raw.pageNumber.Some?
    ensures r.Ok? ==> r.value.pageNumber == raw.pageNumber.value
    ensures r.Ok? && raw.whiteBoardObjects.None? ==> r.value.whiteBoardObjects == []
    ensures r.Ok? && raw.whiteBoardObjects.Some? ==> r.value.whiteBoardObjects == raw.whiteBoardObjects.value
  {
    if raw.pageNumber.None? then Err(Required("pageNumber"))
    else Ok(Page(raw.pageNumber.value, if raw.whiteBoardObjects.Some? then raw.whiteBoardObjects.value else []))
  }

  function CastCollaborators(raws: seq<RawCollaborator>): (r: Result<seq<Collaborator>, SchemaError>)
    ensures r.Ok? ==> |r.value| == |raws|
    ensures r.Ok? ==> forall i :: 0 <= i < |raws| ==> CastCollaborator(raws[i]) == Ok(r.value[i])
    ensures r.Ok? <==> forall i :: 0 <= i < |raws| ==> CastCollaborator(raws[i]).Ok?
  {
    if |raws| == 0 then Ok([])
    else
      var head :- CastCollaborator(raws[0]);
      var tail :- CastCollaborators(raws[1..]);
      Ok([head] + tail)
  }

  function CastPages(raws: seq<RawPage>): (r: Result<seq<Page>, SchemaError>)
    ensures r.Ok? ==> |r.value| == |raws|
    ensures r.Ok? ==> forall i :: 0 <= i < |raws| ==> CastPage(raws[i]) == Ok(r.value[i])
    ensures r.Ok? <==> forall i :: 0 <= i < |raws| ==> raws[i].pageNumber.Some?
  {
    if |raws| == 0 then Ok([])
    else
      var head :- CastPage(raws[0]);
      var tail :- CastPages(raws[1..]);
      Ok([head] + tail)
  }

  /**
   * The board schema applied to a new document with id `id`: `name` and
   * `createdBy` are required; pages default to `[]`, the thumbnail to `""`
   * and security to `private`. The first failing path is reported.
   */
  function CastBoard(id: string, raw: RawBoard): (r: Result<Board, SchemaError>)
    ensures MissingString(raw.name) ==> r == Err(Required("name"))
    ensures r.Ok? <==> !MissingString(raw.name) && raw.createdBy.Some?
                        && (forall i :: 0 <= i < |raw.collaborators| ==> CastCollaborator(raw.collaborators[i]).Ok?)
                        && (raw.pages.Some? ==> forall i :: 0 <= i < |raw.pages.value| ==> raw.pages.value[i].pageNumber.Some?)
                        && CastSecurity(raw.security).Ok?
    ensures r.Ok? ==> r.value.id == id && r.value.name == raw.name.value && r.value.createdBy == raw.createdBy.value
    ensures r.Ok? && raw.pages.None? ==> r.value.pages == []
    ensures r.Ok? && raw.thumbnailImg.None? ==> r.value.thumbnailImg == ""
    ensures r.Ok? && raw.security.None? ==> r.value.security == Private
    ensures r.Ok? ==> CastCollaborators(raw.collaborators) == Ok(r.value.collaborators)
    ensures r.Ok? && raw.pages.Some? ==> CastPages(raw.pages.value) == Ok(r.value.pages)
    ensures r.Ok? && raw.thumbnailImg.Some? ==> r.value.thumbnailImg == raw.thumbnailImg.value
    ensures r.Ok? && raw.security.Some? ==> SecurityName(r.value.security) == raw.security.value
  {
    if MissingString(raw.name) then Err(Required("name"))
    else if raw.createdBy.None? then Err(Required("createdBy"))
    else
      var collaborators :- CastCollaborators(raw.collaborators);
      var pages :- if raw.pages.Some? then CastPages(raw.pages.value) else Ok([]);
      var security :- CastSecurity(raw.security);
      Ok(Board(id, raw.name.value, raw.createdBy.value, collaborators, pages,
               if raw.thumbnailImg.Some? then raw.thumbnailImg.value else "", security))
  }

  /** The compound unique index: no two stored boards share an (owner, name) pair. */
  ghost predicate UniqueOwnerNames(boards: map<string, Board>) {
    forall i, j :: i in boards && j in boards && i != j ==>
      boards[i].createdBy != boards[j].createdBy || boards[i].name != boards[j].name
  }

  /** Whether `b` would clash with a stored board on the unique index. */
  predicate ClashesWith(boards: map<string, Board>, b: Board) {
    exists k :: k in boards && boards[k].createdBy == b.createdBy && boards[k].name == b.name
  }

  /**
   * Inserting a board: a duplicate `_id` or a clash on the (owner, name)
   * index is refused with a duplicate-key error; otherwise the board is stored.
   */
  function InsertBoard(boards: map<string, Board>, b: Board): (r: Result<map<string, Board>, SchemaError>)
    ensures r.Ok? <==> b.id !in boards && !ClashesWith(boards, b)
    ensures r.Err? ==> r.error == DuplicateKey
    ensures r.Ok? ==> r.value.Keys == boards.Keys + {b.id} && r.value[b.id] == b
    ensures r.Ok? ==> forall k :: k in boards ==> r.value[k] == boards[k]
    ensures r.Ok? && UniqueOwnerNames(boards) ==> UniqueOwnerNames(r.value)
  {
    if b.id in boards || ClashesWith(boards, b) then Err(DuplicateKey)
    else Ok(boards[b.id := b])
  }
}

=== FILE: cursor_handler.dfy ===
/** The cursor capability: any permission at all, then identity-tagged rebroadcast to the other room members. */
module CursorHandler {
  import opened Wrappers
  import opened Json
  import opened Errors
  import opened BoardModel
  import opened Messages

  const NoViewPermission := CustomError("You do not have permission to view this.", 403)

  const CursorEvents: set<string> := {"cursorMove"}

  datatype CursorEvent = CursorMove(data: Value)

  /**
   * `registerCursorHandler`: a falsy permission emits one 403 error and
   * registers nothing; `view` and `edit` both enable `cursorMove`. `None`
   * stands for `undefined`, the only falsy value that reaches this gate.
   */
  function RegisterCursorHandler(permission: Option<Permission>): (r: Registration)
    ensures permission.Some? <==> r.listeners == CursorEvents
    ensures permission.Some? ==> r.emitted == []
    ensures permission.None? ==> r.listeners == {} && r.emitted == [ToCaller(NoViewPermission)]
  {
    if permission.None? then Registration({}, [ToCaller(NoViewPermission)])
    else Registration(CursorEvents, [])
  }

  /**
   * The listener body: `cursorMove` becomes `cursorMoved` for the payload's
   * `boardId` room, the sender excluded, with the payload kept and the
   * sender's identity written over any client-supplied identity fields. A
   * `null` or missing payload makes `data.boardId` throw, and nothing is
   * sent (`None`).
   */
  function OnCursorEvent(e: CursorEvent, userId: Value, userEmail: Value): (m: Option<Outgoing>)
    ensures m.None? <==> e.data.Null? || e.data.Undefined?
    ensures m.Some? ==> m.value.Broadcast? && m.value.audience == RoomExceptSender
    ensures m.Some? ==> m.value.event == "cursorMoved" && m.value.rooms == RoomOf(e.data).value
    ensures m.Some? ==> m.value.payload.Some? && m.value.payload.value.Obj?
    ensures m.Some? ==> "userEmail" in m.value.payload.value.fields && m.value.payload.value.fields["userEmail"] == userEmail
    ensures m.Some? ==> "userId" in m.value.payload.value.fields && m.value.payload.value.fields["userId"] == userId
    ensures m.Some? ==> m.value.payload.value.fields.Keys == Spread(e.data).Keys + {"userEmail", "userId"}
    ensures m.Some? ==> forall k :: k in Spread(e.data) && k != "userEmail" && k != "userId" ==>
              k in m.value.payload.value.fields && m.value.payload.value.fields[k] == Spread(e.data)[k]
  {
    match RoomOf(e.data)
    case None => None
    case Some(rooms) => Some(Broadcast(RoomExceptSender, rooms, "cursorMoved", Some(Tagged(e.data, userEmail, userId))))
  }

  /**
   * A receiver that sets the identity fields aside reads back exactly the
   * cursor data the client sent.
   */
  lemma CursorPayloadRoundTrip(e: CursorEvent, userId: Value, userEmail: Value)
    ensures OnCursorEvent(e, userId, userEmail).Some? ==>
              OnCursorEvent(e, userId, userEmail).value.payload.value.fields - {"userEmail", "userId"}
                == Spread(e.data) - {"userEmail", "userId"}
  {
  }
}

=== FILE: draw_handler.dfy ===
/** The drawing capability: an `edit` gate, then unchanged rebroadcast to the whole room. */
module DrawHandler {
  import opened Wrappers
  import opened Json
  import opened Errors
  import opened BoardModel
  import opened Messages

  const NoDrawPermission := CustomError("You do not have permission to draw.", 403)

  /** The events the drawing handler listens to. */
  const DrawEvents: set<string> := {"draw", "erase", "editShape", "clearBoard"}

  datatype DrawEvent =
    | Draw(data: Value)
    | Erase(data: Value)
    | EditShape(data: Value)
    | ClearBoard(boardId: Value)

  function DrawEventName(e: DrawEvent): (name: string)
    ensures name in DrawEvents
  {
    match e
    case Draw(_) => "draw"
    case Erase(_) => "erase"
    case EditShape(_) => "editShape"
    case ClearBoard(_) => "clearBoard"
  }

  /**
   * `registerDrawingHandlers`: anything but `edit` emits one 403 error to the
   * caller and registers nothing. `None` stands for `undefined`, the only
   * other value that reaches this gate (see README).
   */
  function RegisterDrawingHandlers(permission: Option<Permission>): (r: Registration)
    ensures permission == Some(Edit) <==> r.listeners == DrawEvents
    ensures permission == Some(Edit) ==> r.emitted == []
    ensures permission != Some(Edit) ==> r.listeners == {} && r.emitted == [ToCaller(NoDrawPermission)]
  {
    if permission != Some(Edit) then Registration({}, [ToCaller(NoDrawPermission)])
    else Registration(DrawEvents, [])
  }

  /**
   * The listener bodies: `draw` becomes `newDrawing`, `erase` and `editShape`
   * keep their names, all with the payload untouched and addressed to the
   * payload's `boardId`; `clearBoard(boardId)` sends a payload-less
   * `clearBoard` to that room. Every message goes to the whole room. A
   * `null` or missing payload makes `data.boardId` throw, and nothing is
   * sent (`None`).
   */
  function OnDrawEvent(e: DrawEvent): (m: Option<Outgoing>)
    ensures m.None? <==> !e.ClearBoard? && (e.data.Null? || e.data.Undefined?)
    ensures m.Some? ==> m.value.Broadcast? && m.value.audience == WholeRoom
    ensures !e.ClearBoard? && m.Some? ==> m.value.rooms == RoomOf(e.data).value && m.value.payload == Some(e.data)
    ensures e.ClearBoard? ==> m.Some? && m.value.rooms == RoomsNamed(e.boardId) && m.value.payload == None
    ensures m.Some? ==> m.value.event == match e
      case Draw(_) => "newDrawing"
      case Erase(_) => "erase"
      case EditShape(_) => "editShape"
      case ClearBoard(_) => "clearBoard"
  {
    match e
    case Draw(data) => Send(data, "newDrawing")
    case Erase(data) => Send(data, "erase")
    case EditShape(data) => Send(data, "editShape")
    case ClearBoard(boardId) => Some(Broadcast(WholeRoom, RoomsNamed(boardId), "clearBoard", None))
  }

  /** `io.to(data.boardId).emit(event, data)`. */
  function Send(data: Value, event: string): Option<Outgoing> {
    match RoomOf(data)
    case None => None
    case Some(rooms) => Some(Broadcast(WholeRoom, rooms, event, Some(data)))
  }

  /**
   * What a receiving client reads back from a drawing message: the event it
   * stands for, with the payload it carries.
   */
  function ReceivedDrawing(m: Outgoing): Option<DrawEvent> {
    if !m.Broadcast? || m.payload.None? then None
    else if m.event == "newDrawing" then Some(Draw(m.payload.value))
    else if m.event == "erase" then Some(Erase(m.payload.value))
    else if m.event == "editShape" then Some(EditShape(m.payload.value))
    else None
  }

  /**
   * Every drawing message that carries a payload lets its receivers recover
   * exactly the event the sender emitted: the rebroadcast loses nothing.
   * `clearBoard` carries no payload and reads back as no drawing event.
   */
  lemma DrawingRoundTrip(e: DrawEvent)
    ensures OnDrawEvent(e).Some? ==>
              ReceivedDrawing(OnDrawEvent(e).value) == if e.ClearBoard? then None else Some(e)
  {
  }
}

=== FILE: errors.dfy ===
/** The error value every socket-facing operation raises or emits. */
module Errors {

  /** `CustomError`: a human-readable message and an HTTP-style status code. */
  datatype CustomError = CustomError(message: string, status: int)

  /** Raised by the resolver and every service when the board id names no stored board. */
  const BoardDoesNotExist := CustomError("The specified board does not exist", 404)

  /**
   * What a `catch` block receives: either a `CustomError` raised by the
   * operation itself, or any other failure (a store error) with its message.
   */
  datatype Thrown = Custom(error: CustomError) | Generic(message: string)

  /**
   * The services' `catch` block: a `CustomError` is rethrown unchanged; any
   * other failure becomes a status-500 `CustomError` whose message is the
   * operation's prefix followed by the original message.
   */
  function Catch(t: Thrown, prefix: string): (e: CustomError)
    ensures t.Custom? ==> e == t.error
    ensures t.Generic? ==> e.status == 500
    ensures t.Generic? ==> |e.message| == |prefix| + |t.message|
    ensures t.Generic? ==> e.message[..|prefix|] == prefix && e.message[|prefix|..] == t.message
  {
    match t
    case Custom(err) => err
    case Generic(msg) => CustomError(prefix + msg, 500)
  }
}

=== FILE: json.dfy ===
/**
 * Schema-less payloads. Socket events and stored whiteboard objects carry
 * arbitrary JavaScript data; this module gives it a structure the model can
 * reason about, with `Undefined` standing for JavaScript's `undefined`.
 */
module Json {
  import opened Wrappers

  datatype Value =
    | Undefined
    | Null
    | Bool(b: bool)
    | Num(n: int)
    | Str(s: string)
    | Arr(items: seq<Value>)
    | Obj(fields: map<string, Value>)

  /**
   * The property read `v.key`. Reading a property of `null` or `undefined`
   * throws a TypeError, reported as `None`; any other value reads as the
   * field when `v` is an object holding `key`, and as `undefined` otherwise.
   */
  function Read(v: Value, key: string): (r: Option<Value>)
    ensures r.None? <==> v.Null? || v.Undefined?
    ensures v.Obj? && key in v.fields ==> r == Some(v.fields[key])
    ensures r.Some? && !(v.Obj? && key in v.fields) ==> r.value == Undefined
  {
    if v.Null? || v.Undefined? then None
    else if v.Obj? && key in v.fields then Some(v.fields[key])
    else Some(Undefined)
  }

  /**
   * The own fields that the spread `{...v}` copies. Only objects contribute
   * fields here; see README for the array and string cases.
   */
  function Spread(v: Value): map<string, Value> {
    if v.Obj? then v.fields else map[]
  }

  /**
   * The object literal `{ ...data, userEmail, userId }`: every field of `data`
   * survives, and the two identity fields are written last, so they override
   * whatever the client sent under the same names.
   */
  function Tagged(data: Value, userEmail: Value, userId: Value): (r: Value)
    ensures r.Obj?
    ensures r.fields.Keys == Spread(data).Keys + {"userEmail", "userId"}
    ensures r.fields["userEmail"] == userEmail && r.fields["userId"] == userId
    ensures forall k :: k in Spread(data) && k != "userEmail" && k != "userId" ==> r.fields[k] == Spread(data)[k]
  {
    Obj(Spread(data)["userEmail" := userEmail]["userId" := userId])
  }

  /**
   * `Array.isArray(v) ? v : [v]`: the list of objects a store operation saves
   * when the client sent `v`.
   */
  function AsList(v: Value): (r: seq<Value>)
    ensures |r| >= 1 || v.Arr?
    ensures v.Arr? ==> r == v.items
    ensures !v.Arr? ==> r == [v]
  {
    if v.Arr? then v.items else [v]
  }
}

=== FILE: messages.dfy ===
/**
 * What a connection sends out, and the registration outcome shared by the
 * capability handlers.
 */
module Messages {
  import opened Wrappers
  import opened Json
  import opened Errors

  /** Who a message reaches. */
  datatype Audience =
    | WholeRoom          // `io.to(rooms)`: every socket in the rooms, the sender included
    | RoomExceptSender   // `socket.to(rooms)`: every socket in the rooms but the sender

  /**
   * A room broadcast. Socket.IO addresses a message to a set of rooms; an
   * empty set addresses every connected socket.
   */
  datatype Outgoing =
    | Broadcast(audience: Audience, rooms: set<Value>, event: string, payload: Option<Value>)
    | ToCaller(error: CustomError)   // `socket.emit("error", …)`: the originating socket only

  /** What registering a handler set did: the events it now listens to, and what it emitted at once. */
  datatype Registration = Registration(listeners: set<string>, emitted: seq<Outgoing>)

  /**
   * The rooms a `join(target)` or `to(target)` call names: an array names
   * each of its elements, anything else names itself.
   */
  function RoomsNamed(target: Value): (r: set<Value>)
    ensures target.Arr? ==> forall x :: x in r <==> x in target.items
    ensures !target.Arr? ==> r == {target}
  {
    set x | x in AsList(target)
  }

  /**
   * The rooms a listener addresses through `data.boardId`. Reading that
   * property of a `null` or `undefined` payload throws, reported as `None`;
   * a payload without the field addresses the room `undefined`.
   */
  function RoomOf(data: Value): (r: Option<set<Value>>)
    ensures r.None? <==> data.Null? || data.Undefined?
    ensures data.Obj? && "boardId" in data.fields ==> r == Some(RoomsNamed(data.fields["boardId"]))
    ensures r.Some? && !(data.Obj? && "boardId" in data.fields) ==> r.value == {Undefined}
  {
    match Read(data, "boardId")
    case None => None
    case Some(boardId) => Some(RoomsNamed(boardId))
  }

  /** What a listener run sent: its message, or nothing when it threw. */
  function Sent(m: Option<Outgoing>): seq<Outgoing> {
    if m.Some? then [m.value] else []
  }
}

=== FILE: page_services.dfy ===
/**
 * The page persistence services: upsert one page of a board, or delete a
 * page by number, recording the page list before and after in the history.
 */
module PageServices {
  import opened Wrappers
  import opened Json
  import opened Errors
  import opened BoardModel
  import opened Pages
  import opened Store

  const UpdateFailurePrefix := "The following error occurred while trying to update the board: "
  const DeleteFailurePrefix := "The following error occurred while trying to delete the page: "
  const PageDoesNotExist := CustomError("The specified page does not exist", 404)

  /** The input of an upsert: `whiteBoardObjects` is whatever the client sent. */
  datatype PageUpdate = PageUpdate(changerId: string, boardId: string, pageNumber: int, whiteBoardObjects: Value)

  /** The input of a delete. */
  datatype PageDelete = PageDelete(changerId: string, boardId: string, pageNumber: int)

  /** Replace one board's page list, leaving the rest of the store alone. */
  function WithPages(db: Db, id: string, pages: seq<Page>): Db
    requires id in db.boards
  {
    db.(boards := db.boards[id := db.boards[id].(pages := pages)])
  }

  /** The page list the upsert leaves on the board. */
  function UpsertedPages(db: Db, input: PageUpdate): seq<Page>
    requires input.boardId in db.boards
  {
    UpsertPages(db.boards[input.boardId].pages, input.pageNumber, AsList(input.whiteBoardObjects))
  }

  /**
   * The store calls the upsert makes: the existence check, then (for an
   * existing board) the read, the positional `$set`, the `$push` when no
   * page has that number, and the history write.
   */
  function UpdateCalls(db: Db, input: PageUpdate): set<Call> {
    {ExistsCall}
    + (if input.boardId !in db.boards then {}
       else {FindByIdCall, SetPageCall, CreateHistoryCall}
            + (if input.pageNumber in PageNumbers(db.boards[input.boardId].pages) then {} else {PushPageCall}))
  }

  /** The `try` block of the upsert, call by call; `fault` names the store call that throws, if one does. */
  function UpdateAttempt(db: Db, input: PageUpdate, fault: Option<Fault>): Attempt {
    if FailsAt(fault, ExistsCall) then Attempt(db, Some(Failure(fault)))
    else if input.boardId !in db.boards then Attempt(db, Some(Custom(BoardDoesNotExist)))
    else if FailsAt(fault, FindByIdCall) then Attempt(db, Some(Failure(fault)))
    else
      var oldPages := db.boards[input.boardId].pages;
      if FailsAt(fault, SetPageCall) then Attempt(db, Some(Failure(fault)))
      else if input.pageNumber !in PageNumbers(oldPages) && FailsAt(fault, PushPageCall) then
        Attempt(db, Some(Failure(fault)))
      else
        var newPages := UpsertedPages(db, input);
        var written := WithPages(db, input.boardId, newPages);
        if FailsAt(fault, CreateHistoryCall) then Attempt(written, Some(Failure(fault)))
        else Attempt(written.(history := written.history + [PageChange(input.boardId, input.changerId, oldPages, newPages)]), None)
  }

  /** `socketPageUpdateService`. */
  function SocketPageUpdate(db: Db, input: PageUpdate, fault: Option<Fault>): (o: Outcome)
    // with a healthy store the call succeeds exactly when the board exists
    ensures fault.None? ==> (o.result.Ok? <==> input.boardId in db.boards)
    // an absent board: 404 (unless the existence check itself failed) and nothing written
    ensures input.boardId !in db.boards ==> o.db == db
    ensures input.boardId !in db.boards && !FailsAt(fault, ExistsCall) ==> o.result == Err(BoardDoesNotExist)
    // success: the board's pages are upserted and exactly one record of (before, after) is appended
    ensures o.result.Ok? ==> o.result.value && input.boardId in db.boards
    ensures o.result.Ok? ==>
              var before := db.boards[input.boardId].pages;
              var after := UpsertedPages(db, input);
              && o.db.boards == db.boards[input.boardId := db.boards[input.boardId].(pages := after)]
              && o.db.history == db.history + [PageChange(input.boardId, input.changerId, before, after)]
    // a failure writes no history; the pages change only when the history write itself failed
    ensures o.result.Err? ==> o.db.history == db.history
    ensures o.result.Err? && o.db != db ==>
              && FailsAt(fault, CreateHistoryCall) && input.boardId in db.boards
              && o.db.boards == db.boards[input.boardId := db.boards[input.boardId].(pages := UpsertedPages(db, input))]
    // errors: the 404 passes through; every store failure is wrapped as a 500
    ensures o.result.Err? ==> o.result.error == BoardDoesNotExist
                              || (fault.Some? && o.result.error == CustomError(UpdateFailurePrefix + fault.value.message, 500))
    // a failing call the service makes always surfaces as that 500
    ensures fault.Some? && fault.value.at in UpdateCalls(db, input) ==>
              o.result == Err(CustomError(UpdateFailurePrefix + fault.value.message, 500))
    ensures PagesUnique(db.boards) ==> PagesUnique(o.db.boards)
  {
    Settle(UpdateAttempt(db, input, fault), UpdateFailurePrefix)
  }

  /**
   * The store calls the delete makes: the read, then (for an existing board
   * holding that page number) the `$pull` and the history write.
   */
  function DeleteCalls(db: Db, input: PageDelete): set<Call> {
    {FindByIdCall}
    + (if input.boardId in db.boards && input.pageNumber in PageNumbers(db.boards[input.boardId].pages)
       then {PullPageCall, CreateHistoryCall} else {})
  }

  /** The `try` block of the delete, call by call. */
  function DeleteAttempt(db: Db, input: PageDelete, fault: Option<Fault>): Attempt {
    if FailsAt(fault, FindByIdCall) then Attempt(db, Some(Failure(fault)))
    else if input.boardId !in db.boards then Attempt(db, Some(Custom(BoardDoesNotExist)))
    else
      var oldPages := db.boards[input.boardId].pages;
      if input.pageNumber !in PageNumbers(oldPages) then Attempt(db, Some(Custom(PageDoesNotExist)))
      else if FailsAt(fault, PullPageCall) then Attempt(db, Some(Failure(fault)))
      else
        var newPages := DeletePages(oldPages, input.pageNumber);
        var written := WithPages(db, input.boardId, newPages);
        if FailsAt(fault, CreateHistoryCall) then Attempt(written, Some(Failure(fault)))
        else Attempt(written.(history := written.history + [PageChange(input.boardId, input.changerId, oldPages, newPages)]), None)
  }

  /** `socketPageDeleteService`. */
  function SocketPageDelete(db: Db, input: PageDelete, fault: Option<Fault>): (o: Outcome)
    ensures fault.None? ==> (o.result.Ok? <==> input.boardId in db.boards && input.pageNumber in PageNumbers(db.boards[input.boardId].pages))
    // an absent board or page: 404, store untouched, no history
    ensures input.boardId !in db.boards ==> o.db == db
    ensures input.boardId !in db.boards && !FailsAt(fault, FindByIdCall) ==> o.result == Err(BoardDoesNotExist)
    ensures input.boardId in db.boards && input.pageNumber !in PageNumbers(db.boards[input.boardId].pages) ==>
              o.db == db && o.result.Err?
    ensures && input.boardId in db.boards
            && input.pageNumber !in PageNumbers(db.boards[input.boardId].pages)
            && !FailsAt(fault, FindByIdCall)
            ==> o.result == Err(PageDoesNotExist)
    // success: every page with that number is gone and one (before, after) record is appended
    ensures o.result.Ok? ==> o.result.value && input.boardId in db.boards
    ensures o.result.Ok? ==>
              var before := db.boards[input.boardId].pages;
              var after := DeletePages(before, input.pageNumber);
              && o.db.boards == db.boards[input.boardId := db.boards[input.boardId].(pages := after)]
              && o.db.history == db.history + [PageChange(input.boardId, input.changerId, before, after)]
              && input.pageNumber !in PageNumbers(after)
    ensures o.result.Err? ==> o.db.history == db.history
    ensures o.result.Err? ==> o.result.error in {BoardDoesNotExist, PageDoesNotExist}
                              || (fault.Some? && o.result.error == CustomError(DeleteFailurePrefix + fault.value.message, 500))
    // a failing call the service makes always surfaces as that 500
    ensures fault.Some? && fault.value.at in DeleteCalls(db, input) ==>
              o.result == Err(CustomError(DeleteFailurePrefix + fault.value.message, 500))
  {
    assert input.boardId in db.boards ==>
             input.pageNumber !in PageNumbers(DeletePages(db.boards[input.boardId].pages, input.pageNumber)) by {
      if input.boardId in db.boards {
        DeletedNumberIsGone(db.boards[input.boardId].pages, input.pageNumber);
      }
    }
    Settle(DeleteAttempt(db, input, fault), DeleteFailurePrefix)
  }

  /** Deleting a page keeps every board's page numbers unique, whatever fails along the way. */
  lemma DeleteKeepsPagesUnique(db: Db, input: PageDelete, fault: Option<Fault>)
    requires PagesUnique(db.boards)
    ensures PagesUnique(SocketPageDelete(db, input, fault).db.boards)
  {
    if input.boardId in db.boards {
      DeleteKeepsUnique(db.boards[input.boardId].pages, input.pageNumber);
    }
  }

  /** A fault at a store call the upsert never makes has no effect. */
  lemma UpdateIgnoresCallsNotMade(db: Db, input: PageUpdate, f: Fault)
    requires f.at !in UpdateCalls(db, input)
    ensures SocketPageUpdate(db, input, Some(f)) == SocketPageUpdate(db, input, None)
  {
  }

  /** A fault at a store call the delete never makes has no effect. */
  lemma DeleteIgnoresCallsNotMade(db: Db, input: PageDelete, f: Fault)
    requires f.at !in DeleteCalls(db, input)
    ensures SocketPageDelete(db, input, Some(f)) == SocketPageDelete(db, input, None)
  {
  }
}

=== FILE: pages.dfy ===
/**
 * A board's page list and the two transformations the page service applies
 * to it: upsert by page number (positional `$set` on the first match,
 * otherwise `$push`) and delete by page number (`$pull` of every match).
 */
module Pages {
  import opened Wrappers
  import opened Json
  import opened BoardModel

  /** The page numbers present in a page list. */
  function PageNumbers(ps: seq<Page>): set<int> {
    set p | p in ps :: p.pageNumber
  }

  /** Page numbers are unique within a board. */
  ghost predicate UniquePageNumbers(ps: seq<Page>) {
    forall i, j :: 0 <= i < j < |ps| ==> ps[i].pageNumber != ps[j].pageNumber
  }

  /** The index of the first page numbered `n`, or `|ps|` when there is none. */
  function FirstPage(ps: seq<Page>, n: int): (i: nat)
    ensures i <= |ps|
    ensures forall j :: 0 <= j < i ==> ps[j].pageNumber != n
    ensures i < |ps| ==> ps[i].pageNumber == n
    ensures i < |ps| <==> n in PageNumbers(ps)
  {
    if |ps| == 0 then 0
    else if ps[0].pageNumber == n then 0
    else
      var i := 1 + FirstPage(ps[1..], n);
      assert n in PageNumbers(ps[1..]) ==> n in PageNumbers(ps) by {
        if n in PageNumbers(ps[1..]) {
          var p :| p in ps[1..] && p.pageNumber == n;
          assert p in ps;
        }
      }
      assert n in PageNumbers(ps) ==> n in PageNumbers(ps[1..]) by {
        if n in PageNumbers(ps) {
          var p :| p in ps && p.pageNumber == n;
          var k :| 0 <= k < |ps| && ps[k] == p;
          assert k != 0;
          assert ps[1..][k - 1] == p;
        }
      }
      i
  }

  /** The objects a reader finds on page `n`: those of the first page with that number. */
  function PageObjects(ps: seq<Page>, n: int): Option<seq<Value>> {
    var i := FirstPage(ps, n);
    if i < |ps| then Some(ps[i].whiteBoardObjects) else None
  }

  /**
   * The page upsert: when a page numbered `n` exists, the first such page gets
   * `objs` as its object list and nothing else moves; otherwise one new page
   * is appended at the end.
   */
  function UpsertPages(ps: seq<Page>, n: int, objs: seq<Value>): (r: seq<Page>)
    ensures n in PageNumbers(ps) ==>
              && |r| == |ps|
              && r[FirstPage(ps, n)] == Page(n, objs)
              && forall i :: 0 <= i < |ps| && i != FirstPage(ps, n) ==> r[i] == ps[i]
    ensures n !in PageNumbers(ps) ==> r == ps + [Page(n, objs)]
    ensures PageNumbers(r) == PageNumbers(ps) + {n}
    ensures UniquePageNumbers(ps) ==> UniquePageNumbers(r)
  {
    var i := FirstPage(ps, n);
    if i < |ps| then
      var r := ps[i := Page(n, objs)];
      assert PageNumbers(r) == PageNumbers(ps) by {
        forall m | m in PageNumbers(r) ensures m in PageNumbers(ps) {
          var p :| p in r && p.pageNumber == m;
          var k :| 0 <= k < |r| && r[k] == p;
          assert ps[k] in ps;
          assert k == i ==> ps[i].pageNumber == m;
        }
        forall m | m in PageNumbers(ps) ensures m in PageNumbers(r) {
          var p :| p in ps && p.pageNumber == m;
          var k :| 0 <= k < |ps| && ps[k] == p;
          assert r[k] in r;
        }
      }
      r
    else
      var r := ps + [Page(n, objs)];
      assert PageNumbers(r) == PageNumbers(ps) + {n} by {
        assert r[|ps|] in r;
        forall m | m in PageNumbers(ps) ensures m in PageNumbers(r) {
          var p :| p in ps && p.pageNumber == m;
          var k :| 0 <= k < |ps| && ps[k] == p;
          assert r[k] in r;
        }
      }
      assert UniquePageNumbers(ps) ==> UniquePageNumbers(r) by {
        if UniquePageNumbers(ps) {
          forall a, b | 0 <= a < b < |r| ensures r[a].pageNumber != r[b].pageNumber {
            if b == |ps| {
              assert r[a] == ps[a] && ps[a] in ps;
            }
          }
        }
      }
      r
  }

  /** How many pages carry number `n`. */
  function CountNumbered(ps: seq<Page>, n: int): nat {
    if |ps| == 0 then 0
    else (if ps[0].pageNumber == n then 1 else 0) + CountNumbered(ps[1..], n)
  }

  /** `a` can be obtained from `b` by dropping elements, keeping the order of the rest. */
  ghost predicate Subsequence(a: seq<Page>, b: seq<Page>)
    decreases |b|
  {
    |a| == 0 || (|b| > 0 && ((a[0] == b[0] && Subsequence(a[1..], b[1..])) || Subsequence(a, b[1..])))
  }

  /**
   * The page delete (`$pull` by page number): every page numbered `n` goes,
   * every other page stays, in its original order.
   */
  function DeletePages(ps: seq<Page>, n: int): (r: seq<Page>)
    ensures forall p :: p in r <==> p in ps && p.pageNumber != n
    ensures Subsequence(r, ps)
    ensures |r| == |ps| - CountNumbered(ps, n)
  {
    if |ps| == 0 then []
    else
      var rest := DeletePages(ps[1..], n);
      assert forall p :: p in ps <==> p == ps[0] || p in ps[1..];
      if ps[0].pageNumber == n then rest
      else
        var r := [ps[0]] + rest;
        assert r[1..] == rest;
        r
  }

  /** After a delete, exactly the other page numbers remain. */
  lemma DeletedNumberIsGone(ps: seq<Page>, n: int)
    ensures PageNumbers(DeletePages(ps, n)) == PageNumbers(ps) - {n}
  {
    var r := DeletePages(ps, n);
    forall m | m in PageNumbers(ps) - {n} ensures m in PageNumbers(r) {
      var p :| p in ps && p.pageNumber == m;
      assert p in r;
    }
  }

  /** Deleting a number that no page carries changes nothing. */
  lemma {:induction false} DeleteAbsentIsIdentity(ps: seq<Page>, n: int)
    requires n !in PageNumbers(ps)
    ensures DeletePages(ps, n) == ps
  {
    if |ps| > 0 {
      assert ps[0] in ps;
      assert ps[0].pageNumber != n;
      assert n !in PageNumbers(ps[1..]) by {
        assert forall p :: p in ps[1..] ==> p in ps;
      }
      DeleteAbsentIsIdentity(ps[1..], n);
      assert DeletePages(ps, n) == [ps[0]] + DeletePages(ps[1..], n);
      assert ps == [ps[0]] + ps[1..];
    }
  }

  /** Deleting keeps page numbers unique. */
  lemma DeleteKeepsUnique(ps: seq<Page>, n: int)
    requires UniquePageNumbers(ps)
    ensures UniquePageNumbers(DeletePages(ps, n))
  {
    SubsequenceKeepsUnique(DeletePages(ps, n), ps);
  }

  lemma {:induction false} SubsequenceKeepsUnique(a: seq<Page>, b: seq<Page>)
    requires Subsequence(a, b) && UniquePageNumbers(b)
    ensures UniquePageNumbers(a)
    decreases |b|
  {
    if |a| > 0 {
      assert UniquePageNumbers(b[1..]) by {
        forall i, j | 0 <= i < j < |b[1..]| ensures b[1..][i].pageNumber != b[1..][j].pageNumber {
          assert b[1..][i] == b[i + 1] && b[1..][j] == b[j + 1];
        }
      }
      if a[0] == b[0] && Subsequence(a[1..], b[1..]) {
        SubsequenceKeepsUnique(a[1..], b[1..]);
        SubsequenceMembers(a[1..], b[1..]);
        forall j | 0 < j < |a| ensures a[0].pageNumber != a[j].pageNumber {
          assert a[1..][j - 1] == a[j];
          assert a[j] in a[1..];
          assert a[j] in b[1..];
          var k :| 0 <= k < |b[1..]| && b[1..][k] == a[j];
          assert b[k + 1] == a[j];
        }
        forall i, j | 0 <= i < j < |a| ensures a[i].pageNumber != a[j].pageNumber {
          if i > 0 {
            assert a[1..][i - 1] == a[i] && a[1..][j - 1] == a[j];
          }
        }
      } else {
        SubsequenceKeepsUnique(a, b[1..]);
      }
    }
  }

  lemma {:induction false} SubsequenceMembers(a: seq<Page>, b: seq<Page>)
    requires Subsequence(a, b)
    ensures forall p :: p in a ==> p in b
    decreases |b|
  {
    if |a| > 0 {
      if a[0] == b[0] && Subsequence(a[1..], b[1..]) {
        SubsequenceMembers(a[1..], b[1..]);
        assert forall p :: p in a ==> p == a[0] || p in a[1..];
        assert forall p :: p in b[1..] ==> p in b;
      } else {
        SubsequenceMembers(a, b[1..]);
        assert forall p :: p in b[1..] ==> p in b;
      }
    }
  }

  /** Any index meeting the first-match description is the one `FirstPage` finds. */
  lemma FirstPageIsUnique(ps: seq<Page>, n: int, i: nat)
    requires i <= |ps|
    requires forall j :: 0 <= j < i ==> ps[j].pageNumber != n
    requires i < |ps| ==> ps[i].pageNumber == n
    ensures FirstPage(ps, n) == i
  {
  }

  /** Reading page `n` right after upserting it yields exactly the objects written. */
  lemma ReadAfterUpsert(ps: seq<Page>, n: int, objs: seq<Value>)
    ensures PageObjects(UpsertPages(ps, n, objs), n) == Some(objs)
  {
    var r := UpsertPages(ps, n, objs);
    if n in PageNumbers(ps) {
      FirstPageIsUnique(r, n, FirstPage(ps, n));
    } else {
      assert r[|ps|] == Page(n, objs);
      FirstPageIsUnique(r, n, |ps|);
    }
  }

  /** An upsert of page `n` is invisible to readers of any other page number. */
  lemma UpsertLeavesOtherPages(ps: seq<Page>, n: int, objs: seq<Value>, m: int)
    requires m != n
    ensures PageObjects(UpsertPages(ps, n, objs), m) == PageObjects(ps, m)
  {
    var r := UpsertPages(ps, n, objs);
    var f := FirstPage(ps, m);
    if n in PageNumbers(ps) {
      FirstPageIsUnique(r, m, f);
    } else if f < |ps| {
      FirstPageIsUnique(r, m, f);
    } else {
      assert r[|ps|].pageNumber == n;
      FirstPageIsUnique(r, m, |r|);
    }
  }

  /** Writing the same objects to the same page twice is the same as writing them once. */
  lemma UpsertIsIdempotent(ps: seq<Page>, n: int, objs: seq<Value>)
    ensures UpsertPages(UpsertPages(ps, n, objs), n, objs) == UpsertPages(ps, n, objs)
  {
    var r := UpsertPages(ps, n, objs);
    if n in PageNumbers(ps) {
      FirstPageIsUnique(r, n, FirstPage(ps, n));
    } else {
      assert r[|ps|] == Page(n, objs);
      FirstPageIsUnique(r, n, |ps|);
    }
  }

  lemma {:induction false} DeleteDistributes(a: seq<Page>, b: seq<Page>, n: int)
    ensures DeletePages(a + b, n) == DeletePages(a, n) + DeletePages(b, n)
  {
    var ab := a + b;
    if |a| > 0 {
      assert ab[0] == a[0];
      assert ab[1..] == a[1..] + b;
      DeleteDistributes(a[1..], b, n);
      if a[0].pageNumber == n {
        assert DeletePages(ab, n) == DeletePages(ab[1..], n);
        assert DeletePages(a, n) == DeletePages(a[1..], n);
      } else {
        assert DeletePages(ab, n) == [a[0]] + DeletePages(ab[1..], n);
        assert DeletePages(a, n) == [a[0]] + DeletePages(a[1..], n);
        assert [a[0]] + (DeletePages(a[1..], n) + DeletePages(b, n))
            == ([a[0]] + DeletePages(a[1..], n)) + DeletePages(b, n);
      }
    } else {
      assert ab == b;
    }
  }

  lemma {:induction false} DeleteIgnoresRewrite(ps: seq<Page>, i: nat, objs: seq<Value>)
    requires i < |ps|
    ensures DeletePages(ps[i := Page(ps[i].pageNumber, objs)], ps[i].pageNumber) == DeletePages(ps, ps[i].pageNumber)
  {
    var n := ps[i].pageNumber;
    var qs := ps[i := Page(n, objs)];
    if i > 0 {
      assert qs[1..] == ps[1..][i - 1 := Page(n, objs)];
      DeleteIgnoresRewrite(ps[1..], i - 1, objs);
    }
  }

  /** Deleting page `n` after upserting it leaves what deleting it alone would have left. */
  lemma DeleteAfterUpsert(ps: seq<Page>, n: int, objs: seq<Value>)
    ensures DeletePages(UpsertPages(ps, n, objs), n) == DeletePages(ps, n)
  {
    if n in PageNumbers(ps) {
      var i := FirstPage(ps, n);
      assert UpsertPages(ps, n, objs) == ps[i := Page(ps[i].pageNumber, objs)];
      DeleteIgnoresRewrite(ps, i, objs);
    } else {
      DeleteDistributes(ps, [Page(n, objs)], n);
    }
  }

  /** Delete undoes the upsert that created a page: the list is back as it was. */
  lemma DeleteUndoesCreation(ps: seq<Page>, n: int, objs: seq<Value>)
    requires n !in PageNumbers(ps)
    ensures DeletePages(UpsertPages(ps, n, objs), n) == ps
  {
    DeleteAfterUpsert(ps, n, objs);
    DeleteAbsentIsIdentity(ps, n);
  }
}

=== FILE: perm_handler.dfy ===
/**
 * The access resolver: given a board id and the connected user's id, decide
 * the user's access level on that board, first match wins.
 */
module PermHandler {
  import opened Wrappers
  import opened Errors
  import opened BoardModel

  const BoardIdRequired := CustomError("BoardId needs to be provided", 400)
  const NotAuthorized := CustomError("You are not authorized to access this board", 403)

  /**
   * `collaborators.find(...)` by position: the index of the first entry for
   * `userId`, or `|cs|` when there is none.
   */
  function FirstEntryFor(cs: seq<Collaborator>, userId: string): (i: nat)
    ensures i <= |cs|
    ensures forall j :: 0 <= j < i ==> cs[j].user != userId
    ensures i < |cs| ==> cs[i].user == userId
  {
    if |cs| == 0 then 0
    else if cs[0].user == userId then 0
    else 1 + FirstEntryFor(cs[1..], userId)
  }

  /** The collaborator entry `find` returns, if any. */
  function FindCollaborator(cs: seq<Collaborator>, userId: string): (r: Option<Collaborator>)
    ensures r.None? <==> forall c :: c in cs ==> c.user != userId
    ensures r.Some? ==> r.value.user == userId && r.value == cs[FirstEntryFor(cs, userId)]
  {
    var i := FirstEntryFor(cs, userId);
    if i < |cs| then Some(cs[i]) else None
  }

  /** Whether `userId` is listed among the board's collaborators at all. */
  predicate Listed(b: Board, userId: string) {
    exists c :: c in b.collaborators && c.user == userId
  }

  /**
   * `socketPermMiddleware` as a standalone resolver. `boardId` is `None` when
   * the caller passed nothing; an empty id is just as falsy. `boards` is the
   * store `findById` reads.
   */
  function ResolvePermission(boards: map<string, Board>, userId: string, boardId: Option<string>): (r: Result<Permission, CustomError>)
    // a missing or empty id is refused before any lookup
    ensures boardId.None? || boardId == Some("") ==> r == Err(BoardIdRequired)
    ensures boardId.Some? && boardId.value != "" && boardId.value !in boards ==> r == Err(BoardDoesNotExist)
    // the owner always edits, whatever the collaborator list says
    ensures boardId.Some? && boardId.value != "" && boardId.value in boards && boards[boardId.value].createdBy == userId ==> r == Ok(Edit)
    // a listed non-owner gets the permission of the first entry for them
    ensures boardId.Some? && boardId.value != "" && boardId.value in boards && boards[boardId.value].createdBy != userId
            && Listed(boards[boardId.value], userId) ==>
              var cs := boards[boardId.value].collaborators;
              r == Ok(cs[FirstEntryFor(cs, userId)].permission)
    // everyone else: view on a public board, refused on a private one
    ensures boardId.Some? && boardId.value != "" && boardId.value in boards && boards[boardId.value].createdBy != userId
            && !Listed(boards[boardId.value], userId) ==>
              r == if boards[boardId.value].security == Public then Ok(View) else Err(NotAuthorized)
    ensures r.Err? ==> r.error in {BoardIdRequired, BoardDoesNotExist, NotAuthorized}
  {
    if boardId.None? || boardId.value == "" then Err(BoardIdRequired)
    else if boardId.value !in boards then Err(BoardDoesNotExist)
    else
      var board := boards[boardId.value];
      if board.createdBy == userId then Ok(Edit)
      else match FindCollaborator(board.collaborators, userId)
        case Some(c) => Ok(c.permission)
        case None => if board.security == Public then Ok(View) else Err(NotAuthorized)
  }

  /**
   * An independent statement of who may do what: the owner edits; a
   * non-owner holds some listed entry with that permission, or views a
   * public board.
   */
  ghost predicate Grants(b: Board, userId: string, p: Permission) {
    || (b.createdBy == userId && p == Edit)
    || (b.createdBy != userId && exists c :: c in b.collaborators && c.user == userId && c.permission == p)
    || (b.createdBy != userId && !Listed(b, userId) && b.security == Public && p == View)
  }

  /** Every access the resolver hands out is granted by the board, and a refusal means nothing is granted. */
  lemma ResolvedAccessIsGranted(boards: map<string, Board>, userId: string, boardId: string)
    requires boardId != "" && boardId in boards
    ensures ResolvePermission(boards, userId, Some(boardId)).Ok? ==>
              Grants(boards[boardId], userId, ResolvePermission(boards, userId, Some(boardId)).value)
    ensures ResolvePermission(boards, userId, Some(boardId)).Err? <==>
              !Grants(boards[boardId], userId, View) && !Grants(boards[boardId], userId, Edit)
  {
    var b := boards[boardId];
    var r := ResolvePermission(boards, userId, Some(boardId));
    if b.createdBy != userId && Listed(b, userId) {
      var i := FirstEntryFor(b.collaborators, userId);
      assert b.collaborators[i] in b.collaborators;
    }
  }

  /**
   * A private board never leaks `view`: a non-owner who is not listed is
   * refused with 403, and whoever receives `view` there is listed with it.
   */
  lemma PrivateBoardsDoNotLeak(boards: map<string, Board>, userId: string, boardId: string)
    requires boardId != "" && boardId in boards && boards[boardId].security == Private
    ensures ResolvePermission(boards, userId, Some(boardId)) == Ok(View) ==>
              exists c :: c in boards[boardId].collaborators && c.user == userId && c.permission == View
    ensures boards[boardId].createdBy != userId && !Listed(boards[boardId], userId) ==>
              ResolvePermission(boards, userId, Some(boardId)) == Err(NotAuthorized)
  {
    var b := boards[boardId];
    if ResolvePermission(boards, userId, Some(boardId)) == Ok(View) {
      var i := FirstEntryFor(b.collaborators, userId);
      assert b.collaborators[i] in b.collaborators;
    }
  }

  /**
   * Only the first entry for a user matters: entries appended after it, for
   * anyone, never change the resolved access.
   */
  lemma {:induction false} LaterEntriesAreShadowed(cs: seq<Collaborator>, more: seq<Collaborator>, userId: string)
    requires exists c :: c in cs && c.user == userId
    ensures FindCollaborator(cs + more, userId) == FindCollaborator(cs, userId)
  {
    assert FindCollaborator(cs, userId).Some?;
    FirstEntryPrefix(cs, more, userId);
  }

  lemma {:induction false} FirstEntryPrefix(cs: seq<Collaborator>, more: seq<Collaborator>, userId: string)
    requires FirstEntryFor(cs, userId) < |cs|
    ensures FirstEntryFor(cs + more, userId) == FirstEntryFor(cs, userId)
  {
    if cs[0].user != userId {
      assert (cs + more)[1..] == cs[1..] + more;
      FirstEntryPrefix(cs[1..], more, userId);
    }
  }
}

=== FILE: session.dfy ===
/**
 * A connection's life as a sequence of client events: what its room
 * membership becomes, what it sends, and what never changes.
 */
module Session {
  import opened Wrappers
  import opened Json
  import opened BoardModel
  import opened Messages
  import opened AuthHandler
  import opened DrawHandler
  import opened Sockets

  /** Handle `events` in order with `step`, collecting what was sent. */
  function Replay(step: (Connection, ClientEvent) -> Step, c: Connection, events: seq<ClientEvent>): Step
    decreases |events|
  {
    if |events| == 0 then Step(c, [])
    else
      var first := step(c, events[0]);
      var rest := Replay(step, first.conn, events[1..]);
      Step(rest.conn, first.emitted + rest.emitted)
  }

  /** A connection handling `events` in order. */
  function Run(c: Connection, events: seq<ClientEvent>): Step {
    Replay(Dispatch, c, events)
  }

  /** The rooms a sequence of events asks to join, independent of any connection state. */
  function JoinRequests(events: seq<ClientEvent>): set<Value> {
    if |events| == 0 then {}
    else (if events[0].JoinBoard? then RoomsNamed(events[0].boardId) else {}) + JoinRequests(events[1..])
  }

  /** A connection as `OnConnection` wired it. */
  ghost predicate Wired(c: Connection) {
    c.listeners == ListenersFor(c.permission)
  }

  /** The identity, permission and listeners captured at connection time never change. */
  lemma {:induction false} RunKeepsCapturedState(c: Connection, events: seq<ClientEvent>)
    ensures Run(c, events).conn.socketId == c.socketId
    ensures Run(c, events).conn.user == c.user
    ensures Run(c, events).conn.permission == c.permission
    ensures Run(c, events).conn.listeners == c.listeners
    decreases |events|
  {
    if |events| > 0 {
      RunKeepsCapturedState(Dispatch(c, events[0]).conn, events[1..]);
    }
  }

  /**
   * Room membership after any events: with a permission, exactly the rooms
   * held before plus every board asked for; without one, unchanged.
   */
  lemma {:induction false} RunMembership(c: Connection, events: seq<ClientEvent>)
    requires "joinBoard" in c.listeners
    ensures Run(c, events).conn.rooms == if c.permission.Some? then c.rooms + JoinRequests(events) else c.rooms
    decreases |events|
  {
    if |events| > 0 {
      var first := Dispatch(c, events[0]);
      RunMembership(first.conn, events[1..]);
    }
  }

  /** `joinBoard` with a list of ids joins every room in the list, not one list-valued room. */
  lemma JoinListJoinsEveryRoom(c: Connection, ids: seq<Value>)
    requires "joinBoard" in c.listeners && c.permission.Some?
    ensures forall x :: x in ids ==> x in Run(c, [JoinBoard(Arr(ids))]).conn.rooms
  {
    RunOne(c, JoinBoard(Arr(ids)));
  }

  /** Joining never leaves a room: membership only grows. */
  lemma MembershipOnlyGrows(c: Connection, events: seq<ClientEvent>)
    requires "joinBoard" in c.listeners
    ensures c.rooms <= Run(c, events).conn.rooms
  {
    RunMembership(c, events);
  }

  lemma {:induction false} ReplayConcatenates(step: (Connection, ClientEvent) -> Step, c: Connection, xs: seq<ClientEvent>, ys: seq<ClientEvent>)
    ensures Replay(step, c, xs + ys).conn == Replay(step, Replay(step, c, xs).conn, ys).conn
    ensures Replay(step, c, xs + ys).emitted == Replay(step, c, xs).emitted + Replay(step, Replay(step, c, xs).conn, ys).emitted
    decreases |xs|
  {
    if |xs| == 0 {
      assert xs + ys == ys;
    } else {
      var first := step(c, xs[0]);
      assert (xs + ys)[0] == xs[0];
      assert (xs + ys)[1..] == xs[1..] + ys;
      ReplayConcatenates(step, first.conn, xs[1..], ys);
    }
  }

  /** A single event is handled by a single step. */
  lemma RunOne(c: Connection, e: ClientEvent)
    ensures Run(c, [e]) == Dispatch(c, e)
  {
    assert [e][1..] == [];
    var first := Dispatch(c, e);
    assert Replay(Dispatch, first.conn, []) == Step(first.conn, []);
    assert first.emitted + [] == first.emitted;
  }

  /** Handling two batches in turn sends what each batch sends, in order: per-sender order is kept. */
  lemma RunConcatenates(c: Connection, xs: seq<ClientEvent>, ys: seq<ClientEvent>)
    ensures Run(c, xs + ys).conn == Run(Run(c, xs).conn, ys).conn
    ensures Run(c, xs + ys).emitted == Run(c, xs).emitted + Run(Run(c, xs).conn, ys).emitted
  {
    ReplayConcatenates(Dispatch, c, xs, ys);
  }

  /** How many `joinBoard` events a sequence holds. */
  function JoinCount(events: seq<ClientEvent>): nat {
    if |events| == 0 then 0
    else (if events[0].JoinBoard? then 1 else 0) + JoinCount(events[1..])
  }

  /**
   * A connection without a permission joins nothing and broadcasts nothing:
   * it answers each `joinBoard` with one 403 error and ignores everything else.
   */
  lemma {:induction false} NoPermissionOnlyRefuses(c: Connection, events: seq<ClientEvent>)
    requires Wired(c) && c.permission.None?
    ensures Run(c, events).conn.rooms == c.rooms
    ensures |Run(c, events).emitted| == JoinCount(events)
    ensures forall i :: 0 <= i < |Run(c, events).emitted| ==> Run(c, events).emitted[i] == ToCaller(Sockets.NoJoinPermission)
    decreases |events|
  {
    if |events| > 0 {
      var first := Dispatch(c, events[0]);
      assert EventName(events[0]) in c.listeners <==> events[0].JoinBoard? || events[0].Disconnect?;
      NoPermissionOnlyRefuses(first.conn, events[1..]);
    }
  }

  /**
   * A view-only connection is told once, at connection time, that it may not
   * draw; a drawing event it sends later reaches nobody.
   */
  lemma ViewerCannotDraw(socketId: string, user: User, e: DrawEvent)
    ensures var s := OnConnection(socketId, user, Some(View));
            && ToCaller(NoDrawPermission) in s.emitted
            && Run(s.conn, [Drawing(e)]).emitted == []
  {
    var s := OnConnection(socketId, user, Some(View));
    assert s.emitted[0] == ToCaller(NoDrawPermission);
    RunOne(s.conn, Drawing(e));
  }

  /**
   * An editor's drawing reaches the whole room named in its payload,
   * unchanged; a `null` or missing payload throws and reaches nobody.
   */
  lemma EditorDrawingReachesRoom(socketId: string, user: User, data: Value)
    ensures var s := OnConnection(socketId, user, Some(Edit));
            && s.emitted == []
            && Run(s.conn, [Drawing(Draw(data))]).emitted ==
                 if data.Null? || data.Undefined? then []
                 else [Broadcast(WholeRoom, RoomOf(data).value, "newDrawing", Some(data))]
  {
    var s := OnConnection(socketId, user, Some(Edit));
    RunOne(s.conn, Drawing(Draw(data)));
  }
}

=== FILE: shape_service.dfy ===
/**
 * The whole-board shape replacement as written: record the change in the
 * history, assign the new list to `board.shapes`, then save the board. The
 * board schema is strict and declares no `shapes` path, so the read gives
 * `undefined` and the assignment is not part of what `save()` writes: only
 * the history record is stored.
 */
module ShapeService {
  import opened Wrappers
  import opened Json
  import opened Errors
  import opened Store

  const ShapeFailurePrefix := "The following error occurred while trying to delete the board: "

  /** The input: `newShapes` is whatever the client sent. */
  datatype ShapeUpdate = ShapeUpdate(changerId: string, boardId: string, newShapes: Value)

  /** The store calls the shape service makes: the read, then (for an existing board) the history write and the save. */
  function ShapeCalls(db: Db, input: ShapeUpdate): set<Call> {
    {FindByIdCall} + (if input.boardId in db.boards then {CreateHistoryCall, SaveCall} else {})
  }

  /** The `try` block, call by call: find, write history, then save a board with no declared change. */
  function ShapeAttempt(db: Db, input: ShapeUpdate, fault: Option<Fault>): Attempt {
    if FailsAt(fault, FindByIdCall) then Attempt(db, Some(Failure(fault)))
    else if input.boardId !in db.boards then Attempt(db, Some(Custom(BoardDoesNotExist)))
    else
      var shapes := AsList(input.newShapes);
      if FailsAt(fault, CreateHistoryCall) then Attempt(db, Some(Failure(fault)))
      else
        var recorded := db.(history := db.history + [ShapeChange(input.boardId, input.changerId, Undefined, shapes)]);
        if FailsAt(fault, SaveCall) then Attempt(recorded, Some(Failure(fault)))
        else Attempt(recorded, None)
  }

  /** `socketShapeService`. */
  function SocketShapeUpdate(db: Db, input: ShapeUpdate, fault: Option<Fault>): (o: Outcome)
    ensures fault.None? ==> (o.result.Ok? <==> input.boardId in db.boards)
    // the stored boards never change: the shape list is not a stored path
    ensures o.db.boards == db.boards
    // an absent board: 404 and nothing written
    ensures input.boardId !in db.boards ==> o.db == db
    ensures input.boardId !in db.boards && !FailsAt(fault, FindByIdCall) ==> o.result == Err(BoardDoesNotExist)
    // the record is written exactly when the board is found and the write succeeds, with `undefined` as the old shapes
    ensures input.boardId in db.boards && !FailsAt(fault, FindByIdCall) && !FailsAt(fault, CreateHistoryCall) ==>
              o.db.history == db.history + [ShapeChange(input.boardId, input.changerId, Undefined, AsList(input.newShapes))]
    ensures input.boardId !in db.boards || FailsAt(fault, FindByIdCall) || FailsAt(fault, CreateHistoryCall) ==>
              o.db.history == db.history
    // success: the record was written and the service returns true
    ensures o.result.Ok? ==> o.result.value && input.boardId in db.boards && |o.db.history| == |db.history| + 1
    // the history is written before the save: a failed save still leaves the record
    ensures input.boardId in db.boards && FailsAt(fault, SaveCall) ==> o.result.Err? && |o.db.history| == |db.history| + 1
    ensures o.result.Err? ==> o.result.error == BoardDoesNotExist
                              || (fault.Some? && o.result.error == CustomError(ShapeFailurePrefix + fault.value.message, 500))
    // a failing call the service makes always surfaces as that 500
    ensures fault.Some? && fault.value.at in ShapeCalls(db, input) ==>
              o.result == Err(CustomError(ShapeFailurePrefix + fault.value.message, 500))
  {
    Settle(ShapeAttempt(db, input, fault), ShapeFailurePrefix)
  }

  /** A fault at a store call the shape service never makes has no effect. */
  lemma ShapeIgnoresCallsNotMade(db: Db, input: ShapeUpdate, f: Fault)
    requires f.at !in ShapeCalls(db, input)
    ensures SocketShapeUpdate(db, input, Some(f)) == SocketShapeUpdate(db, input, None)
  {
  }
}

=== FILE: sockets.dfy ===
/**
 * The per-connection wiring: the handshake middleware chain, what a new
 * connection registers, and how each client event changes the connection's
 * room membership and what it sends out.
 */
module Sockets {
  import opened Wrappers
  import opened Json
  import opened Errors
  import opened BoardModel
  import opened Messages
  import opened AuthHandler
  import opened DrawHandler
  import opened TextHandler
  import opened CursorHandler

  const NoJoinPermission := CustomError("You do not have permission to draw.", 403)

  /** How a later handshake stage ends: it calls `next()`, calls `next(error)`, or never calls `next`. */
  datatype StageResult = Proceed | Refuse(error: CustomError) | Stall

  /** A live connection: who it is, the permission captured when it connected, its rooms and its listeners. */
  datatype Connection = Connection(
    socketId: string,
    user: User,
    permission: Option<Permission>,
    rooms: set<Value>,
    listeners: set<string>)

  /** A connection together with the messages a step sent out. */
  datatype Step = Step(conn: Connection, emitted: seq<Outgoing>)

  datatype Handshake = Connected(setup: Step) | Refused(error: CustomError) | Pending

  /** The listeners a connection with this permission carries. */
  function ListenersFor(permission: Option<Permission>): set<string> {
    {"joinBoard", "disconnect"} + (if permission == Some(Edit) then DrawEvents + TextEvents else {})
  }

  /**
   * The `connection` callback: read the permission once, listen for
   * `joinBoard`, register the drawing and text handlers with that permission,
   * listen for `disconnect`. The cursor handler is not registered.
   */
  function OnConnection(socketId: string, user: User, permission: Option<Permission>): (s: Step)
    ensures s.conn == Connection(socketId, user, permission, {}, ListenersFor(permission))
    ensures "cursorMove" !in s.conn.listeners
    // each gated handler reports its own 403 once when the permission is not `edit`
    ensures s.emitted == if permission == Some(Edit) then [] else [ToCaller(NoDrawPermission), ToCaller(NoTextPermission)]
  {
    var draw := RegisterDrawingHandlers(permission);
    var text := RegisterTextHandlers(permission);
    Step(Connection(socketId, user, permission, {}, {"joinBoard"} + draw.listeners + text.listeners + {"disconnect"}),
         draw.emitted + text.emitted)
  }

  /**
   * The handshake: the authentication middleware runs first and the
   * permission middleware second, so a refused token never reaches the
   * second stage. `permStage` is how that second stage ends.
   */
  function Connect(
    cookieHeader: Option<string>,
    env: Option<string>,
    parse: string -> map<string, string>,
    verify: (string, string) -> Option<User>,
    permStage: StageResult,
    socketId: string,
    permission: Option<Permission>): (h: Handshake)
    ensures var auth := SocketAuth(cookieHeader, env, parse, verify);
            && (auth.user.None? ==> h == Refused(auth.nextCalls[0].value))
            && (h.Connected? <==> auth.user.Some? && permStage.Proceed?)
            && (h.Connected? ==> h.setup == OnConnection(socketId, auth.user.value, permission))
    ensures h.Refused? ==> h.error.status == 401 || permStage == Refuse(h.error)
    // with a verified token, the second stage alone decides
    ensures SocketAuth(cookieHeader, env, parse, verify).user.Some? ==>
              h == match permStage
                case Proceed => Connected(OnConnection(socketId, SocketAuth(cookieHeader, env, parse, verify).user.value, permission))
                case Refuse(e) => Refused(e)
                case Stall => Pending
  {
    var auth := SocketAuth(cookieHeader, env, parse, verify);
    if auth.user.None? then Refused(auth.nextCalls[0].value)
    else match permStage
      case Refuse(e) => Refused(e)
      case Stall => Pending
      case Proceed => Connected(OnConnection(socketId, auth.user.value, permission))
  }

  /**
   * As installed, the second stage never calls `next`, so no handshake ever
   * yields a connection: it is refused with 401 or left pending.
   */
  lemma InstalledHandshakeNeverConnects(
    cookieHeader: Option<string>,
    env: Option<string>,
    parse: string -> map<string, string>,
    verify: (string, string) -> Option<User>,
    socketId: string,
    permission: Option<Permission>)
    ensures var h := Connect(cookieHeader, env, parse, verify, Stall, socketId, permission);
            && !h.Connected?
            && (h.Refused? ==> h.error.status == 401)
            && (h == Pending <==> SocketAuth(cookieHeader, env, parse, verify).user.Some?)
  {
  }

  datatype ClientEvent =
    | JoinBoard(boardId: Value)
    | Drawing(draw: DrawEvent)
    | Text(text: TextEvent)
    | Cursor(cursor: CursorEvent)
    | Disconnect

  function EventName(e: ClientEvent): string {
    match e
    case JoinBoard(_) => "joinBoard"
    case Drawing(d) => DrawEventName(d)
    case Text(t) => TextEventName(t)
    case Cursor(_) => "cursorMove"
    case Disconnect => "disconnect"
  }

  /**
   * One client event on a connection. `joinBoard` consults only the
   * permission captured at connection time, whatever board it names, and
   * joins every room the argument names. Drawing and text events run their
   * listeners when registered; a listener that throws sends nothing. The text
   * handler was registered without an identity, so its tags are `undefined`.
   * `disconnect` only logs. No event touches the store.
   */
  function Dispatch(c: Connection, e: ClientEvent): (s: Step)
    ensures s.conn.socketId == c.socketId && s.conn.user == c.user
    ensures s.conn.permission == c.permission && s.conn.listeners == c.listeners
    // membership only grows, and only through a permitted join
    ensures c.rooms <= s.conn.rooms
    ensures e.JoinBoard? && "joinBoard" in c.listeners && c.permission.Some? ==>
              s.conn.rooms == c.rooms + RoomsNamed(e.boardId) && s.emitted == []
    ensures e.JoinBoard? && "joinBoard" in c.listeners && c.permission.None? ==> s.conn == c && s.emitted == [ToCaller(NoJoinPermission)]
    ensures !e.JoinBoard? ==> s.conn == c
    // an event nobody listens to is dropped
    ensures EventName(e) !in c.listeners ==> s == Step(c, [])
    ensures e.Drawing? && EventName(e) in c.listeners ==> s.emitted == Sent(OnDrawEvent(e.draw))
    ensures e.Text? && EventName(e) in c.listeners ==> s.emitted == Sent(OnTextEvent(e.text, Undefined, Undefined))
    ensures e.Cursor? || e.Disconnect? ==> s.emitted == []
  {
    match e
    case JoinBoard(boardId) =>
      if "joinBoard" !in c.listeners then Step(c, [])
      else if c.permission.Some? then Step(c.(rooms := c.rooms + RoomsNamed(boardId)), [])
      else Step(c, [ToCaller(NoJoinPermission)])
    case Drawing(d) =>
      if DrawEventName(d) in c.listeners then Step(c, Sent(OnDrawEvent(d))) else Step(c, [])
    case Text(t) =>
      if TextEventName(t) in c.listeners then Step(c, Sent(OnTextEvent(t, Undefined, Undefined))) else Step(c, [])
    case Cursor(_) => Step(c, [])
    case Disconnect => Step(c, [])
  }
}

=== FILE: store.dfy ===
/**
 * The document store as the persistence services see it: the stored boards,
 * keyed by id, and the append-only change history. Each service call runs as
 * one sequential step over this state.
 */
module Store {
  import opened Wrappers
  import opened Json
  import opened Errors
  import opened BoardModel
  import Pages

  /**
   * One audit entry: the page list (or shape list) of one board before and
   * after a change, and who made it. `oldShapes` is whatever reading
   * `board.shapes` gave.
   */
  datatype HistoryRecord =
    | PageChange(boardId: string, changerId: string, oldPages: seq<Page>, newPages: seq<Page>)
    | ShapeChange(boardId: string, changerId: string, oldShapes: Value, newShapes: seq<Value>)

  datatype Db = Db(boards: map<string, Board>, history: seq<HistoryRecord>)

  /** The store calls the services issue. */
  datatype Call =
    | ExistsCall      // Board.exists
    | FindByIdCall    // Board.findById
    | SetPageCall     // findOneAndUpdate with a positional $set
    | PushPageCall    // findByIdAndUpdate with $push
    | PullPageCall    // findByIdAndUpdate with $pull
    | CreateHistoryCall
    | SaveCall        // board.save()

  /** A store failure that is not a `CustomError`: call `at` throws an error with `message`. */
  datatype Fault = Fault(at: Call, message: string)

  predicate FailsAt(fault: Option<Fault>, c: Call) {
    fault.Some? && fault.value.at == c
  }

  /** The thrown value of a failing call. */
  function Failure(fault: Option<Fault>): Thrown
    requires fault.Some?
  {
    Generic(fault.value.message)
  }

  /** What a service reports once its `try`/`catch` has run. */
  datatype Outcome = Outcome(db: Db, result: Result<bool, CustomError>)

  /** What the body of a `try` block leaves behind: the store, and what it threw, if anything. */
  datatype Attempt = Attempt(db: Db, thrown: Option<Thrown>)

  /** The service's `catch`: success returns `true`; a throw becomes the reported error. */
  function Settle(a: Attempt, prefix: string): (o: Outcome)
    ensures o.db == a.db
    ensures o.result.Ok? <==> a.thrown.None?
    ensures o.result.Ok? ==> o.result.value
    ensures a.thrown.Some? ==> o.result == Err(Catch(a.thrown.value, prefix))
  {
    Outcome(a.db, if a.thrown.None? then Ok(true) else Err(Catch(a.thrown.value, prefix)))
  }

  /** Every stored board keeps its page numbers unique. */
  ghost predicate PagesUnique(boards: map<string, Board>) {
    forall id :: id in boards ==> Pages.UniquePageNumbers(boards[id].pages)
  }

  /** The page list the newest page record about board `id` left behind, if there is one. */
  function LastPages(history: seq<HistoryRecord>, id: string): Option<seq<Page>>
    decreases |history|
  {
    if |history| == 0 then None
    else
      var h := history[|history| - 1];
      if h.PageChange? && h.boardId == id then Some(h.newPages)
      else LastPages(history[..|history| - 1], id)
  }

  /**
   * The audit trail agrees with the store: for every board, the newest page
   * record (if any) shows the board's current pages.
   */
  ghost predicate HistoryMatchesPages(db: Db) {
    forall id :: id in db.boards && LastPages(db.history, id).Some? ==> LastPages(db.history, id).value == db.boards[id].pages
  }
}

=== FILE: text_handler.dfy ===
/** The text capability: an `edit` gate, then identity-tagged rebroadcast to the whole room. */
module TextHandler {
  import opened Wrappers
  import opened Json
  import opened Errors
  import opened BoardModel
  import opened Messages

  const NoTextPermission := CustomError("You do not have permission to alter text.", 403)

  const TextEvents: set<string> := {"addText", "backspaceText", "editText"}

  datatype TextEvent =
    | AddText(data: Value)
    | BackspaceText(data: Value)
    | EditText(data: Value)

  function TextEventName(e: TextEvent): (name: string)
    ensures name in TextEvents
  {
    match e
    case AddText(_) => "addText"
    case BackspaceText(_) => "backspaceText"
    case EditText(_) => "editText"
  }

  /**
   * `registerTextHandlers`: anything but `edit` emits one 403 error to the
   * caller and registers nothing. `None` stands for `undefined`.
   */
  function RegisterTextHandlers(permission: Option<Permission>): (r: Registration)
    ensures permission == Some(Edit) <==> r.listeners == TextEvents
    ensures permission == Some(Edit) ==> r.emitted == []
    ensures permission != Some(Edit) ==> r.listeners == {} && r.emitted == [ToCaller(NoTextPermission)]
  {
    if permission != Some(Edit) then Registration({}, [ToCaller(NoTextPermission)])
    else Registration(TextEvents, [])
  }

  /**
   * The listener bodies: `addText`, `backspaceText` and `editText` become
   * `addedText`, `backspacedText` and `editedText`, sent to the payload's
   * `boardId` room with every payload field kept and the handler's
   * `userEmail` and `userId` written over any the client sent. A `null` or
   * missing payload makes `data.boardId` throw, and nothing is sent (`None`).
   */
  function OnTextEvent(e: TextEvent, userId: Value, userEmail: Value): (m: Option<Outgoing>)
    ensures m.None? <==> e.data.Null? || e.data.Undefined?
    ensures m.Some? ==> m.value.Broadcast? && m.value.audience == WholeRoom
    ensures m.Some? ==> m.value.rooms == RoomOf(e.data).value
    ensures m.Some? ==> m.value.payload.Some? && m.value.payload.value.Obj?
    ensures m.Some? ==> "userEmail" in m.value.payload.value.fields && m.value.payload.value.fields["userEmail"] == userEmail
    ensures m.Some? ==> "userId" in m.value.payload.value.fields && m.value.payload.value.fields["userId"] == userId
    ensures m.Some? ==> m.value.payload.value.fields.Keys == Spread(e.data).Keys + {"userEmail", "userId"}
    ensures m.Some? ==> forall k :: k in Spread(e.data) && k != "userEmail" && k != "userId" ==>
              k in m.value.payload.value.fields && m.value.payload.value.fields[k] == Spread(e.data)[k]
    ensures m.Some? ==> m.value.event == match e
      case AddText(_) => "addedText"
      case BackspaceText(_) => "backspacedText"
      case EditText(_) => "editedText"
  {
    var event := match e
      case AddText(_) => "addedText"
      case BackspaceText(_) => "backspacedText"
      case EditText(_) => "editedText";
    match RoomOf(e.data)
    case None => None
    case Some(rooms) => Some(Broadcast(WholeRoom, rooms, event, Some(Tagged(e.data, userEmail, userId))))
  }

  /**
   * A receiver that sets the identity fields aside reads back exactly what
   * the client sent under every other name.
   */
  lemma TextPayloadRoundTrip(e: TextEvent, userId: Value, userEmail: Value)
    ensures OnTextEvent(e, userId, userEmail).Some? ==>
              OnTextEvent(e, userId, userEmail).value.payload.value.fields - {"userEmail", "userId"}
                == Spread(e.data) - {"userEmail", "userId"}
  {
  }
}

=== FILE: wrappers.dfy ===
/** Option and Result, the failure-compatible wrappers used throughout the model. */
module Wrappers {

  datatype Option<+T> = None | Some(value: T)

  /** The outcome of an operation that either produces a value or fails with an error. */
  datatype Result<+T, +E> = Ok(value: T) | Err(error: E) {

    predicate IsFailure() {
      Err?
    }

    function PropagateFailure<U>(): Result<U, E>
      requires Err?
    {
      Err(error)
    }

    function Extract(): T
      requires Ok?
    {
      value
    }
  }
}
